=== FILE: README.md ===
# Address search views: query-to-filter model

This project models, in Dafny, the pure logic of the address API views in
`ais/api/views.py`. The Flask, SQLAlchemy and parser calls around that logic
are removed. For each route, the model turns the raw path and request
arguments into one of two things: an immediate response, or one index query
paired with the response to give when that query finds nothing.

The model covers:

- **Loose and strict address filters.** The loose filter is a `NotNoneDict`
  of the street and number components the parser found, so a component it
  did not find places no constraint. The strict filter always constrains
  `address_high` (NULL when no range was given) and `unit_num` (`''` when no
  unit number was given). The two are merged with `dict.update`. When
  `low_num` is missing, the raw `full` number token stands in for it.
- **Block window.** The block number is read with Python's `int()`. If that
  fails, the answer is the 400 "No valid block number provided." error.
  Otherwise the filter is the half-open window
  `[(n // 100) * 100, (n // 100) * 100 + 100)` on `address_low`.
- **Intersection key.** Two street codes become the order-free pair
  `(str(min), str(max))`. If either code is missing or empty, the pair is
  `('', '')`.
- **`/search` request handling.**
  - It first applies the length guard:
    `len(query) + sum(len(name) for name in request.args) < 60`.
  - It then dispatches on the parser's type: `intersection_addr`, `address`,
    `opa_account`, `mapreg`, or anything else.
- **Shared tail of every route.** The result count is taken first. A zero
  count is reported as not-found before the page argument is validated.
- **Batched `/addresses` queries.** The query is split on `;`, each piece is
  stripped, and empty pieces are dropped. There is one lookup and one
  normalised output per remaining piece.
- **`/owner` tokens.** The owner tokens are `query.upper().split()`.

The parser (`PassyunkParser`) is a function parameter `string -> Parsed` and
is assumed pure and total. The index is a parameter `DbQuery -> nat` that
gives the number of rows a query finds. The paginator's `validate_page_num`
is a parameter `(collection size, page string) -> PageVerdict`. The meaning of
`filter_by` is given explicitly as an equality conjunction over rows
(`Filters.Matches`, `Filters.FilterRows`). Under this meaning a `None` value
compiles to `IS NULL`.

Some statuses in the code differ from what one would expect. The model
follows the code in each case:

- The length guard's body carries code 400, but the route answers with
  status 404.
- An intersection that is not found has a body with code 404, but the route
  answers with status 200.
- An unrecognised search type gets the 404 "Could not find addresses
  matching query." answer, not a 400.
- `/addresses` with no non-empty sub-query (for example `;`) never starts a
  query. It then fails on `None.order_by_address()`, so the model answers
  with Flask's 500 handler.
- An intersection street code that is not a number makes `int()` raise,
  which also gives a 500.
- A found intersection on a valid page whose first or second street has no
  full name also gives a 500: the listing's `normalized` entry joins the two
  full names with ` & `, and joining a missing name raises.

Modules:

- `Base`: `Option` and `Result`.
- `PyText`: `str.strip`, `str.split`, `str.upper`, `int(str)`, `str(int)`.
- `Filters`: `filter_by` and `NotNoneDict`.
- `ParserOutput`: the parser's components.
- `Compile`: the address, block and intersection filters, sub-queries and
  owner tokens.
- `Views`: the routes.

## Model

| member | source | states |
|---|---|---|
| PyText.Strip | ais/api/views.py:73 | `strip` returns a slice of the input whose surroundings are all stripped characters. Its ends are never stripped characters. It is empty exactly when every character is stripped. |
| PyText.StripKeepsStripped | ais/api/views.py:75 | Stripping a string whose ends are not stripped characters changes nothing. |
| PyText.SplitOn | ais/api/views.py:75 | `split(';')` gives at least one piece. No piece contains `;`. Joining the pieces with `;` gives back the input. |
| PyText.SplitJoinRoundTrip | ais/api/views.py:75 | Splitting on `;` inverts joining with `;` when no part contains `;`. |
| PyText.Words | ais/api/views.py:230 | `split()` gives non-empty words with no white space. A string starting with a non-space character has a word. A non-empty string with no white space is one word. |
| PyText.WordsKeepCharacters | ais/api/views.py:230 | Glued back together, the words hold exactly the non-white-space characters of the input, in order. |
| PyText.WordsSplitAtSpace | ais/api/views.py:230 | No word runs across white space: the words of `a + c + b` for a space `c` are the words of `a` followed by the words of `b`. With the one-word case this fixes where every word starts and ends. |
| PyText.Upper | ais/api/views.py:230 | `upper()` keeps the length and the white-space positions. Each lower-case ASCII letter becomes the upper-case letter at the same alphabet position, and every other character is kept. |
| PyText.WordsOfUpper | ais/api/views.py:230 | The words of `s.upper()` are the upper-cased words of `s`. Upper-casing does not move word boundaries. |
| PyText.ParseInt | ais/api/views.py:176-180 | `int()` of a digit string is its decimal value. A minus sign before digits gives the negated value. A string with no digit at all fails. A string that starts or ends with one of the ASCII separators U+001C to U+001F fails: `int()` does not skip them, although `str.isspace()` calls them white space. |
| PyText.Decimal | ais/api/views.py:411-412 | `str(n)` starts with `-` exactly when `n` is negative. The rest is a non-empty digit string whose value is the magnitude of `n` and that has no leading zero unless `n` is 0. |
| PyText.DecimalRoundTrip | ais/api/views.py:411-412 | `int(str(n)) == n`. |
| Filters.FilterRows | ais/api/views.py:114-115 | `filter_by` keeps exactly the rows on which every filtered column equals the filter's value, each as many times as it occurs in the input. |
| Filters.StrongerFilterKeepsFewer | ais/api/views.py:114-115 | A filter that asks for more keeps a subset of the rows, and no more of them. |
| Filters.NotNoneDict | ais/api/views.py:92-101 | A keyword is a key of the result exactly when its value is not `None`, and then it maps to that value. |
| Filters.Update | ais/api/views.py:109-110 | `copy()` then `update()` gives the union of the keys. The updating map wins on a shared key. |
| Filters.MergeDisjoint | ais/api/views.py:109-110 | For disjoint filters, a row matches the merge exactly when it matches both. Restricting the merge to either filter's keys gives that filter back. |
| Compile.LooseFilter | ais/api/views.py:92-101 | Each loose column is present exactly when its component is not `None`, with that value. `address_low` is `low_num` when present, otherwise `full`, and absent when both are `None`. |
| Compile.StrictFilter | ais/api/views.py:102-107 | The keys are always exactly `address_high` and `unit_num`. `address_high` is NULL exactly when no high number was parsed. `unit_num` is `''` exactly when the unit number is `None` or empty. |
| Compile.AddressFilter | ais/api/views.py:109-110 | The loose and strict key sets are disjoint. The merged keys are the loose keys plus both strict columns. |
| Compile.MergedAsksForBoth | ais/api/views.py:102-110 | A row matches the merged filter exactly when it matches both the loose and the strict filter. Restricting the merge to either half gives that half back unchanged. |
| Compile.NoUnitMatchesOnlyUnitless | ais/api/views.py:102-110 | With no unit number, or an empty one, every row matching the merged filter has `unit_num == ''`. |
| Compile.NoHighNumberMatchesOnlyNonRange | ais/api/views.py:102-110 | With no high number, every row matching the merged filter has a NULL `address_high`. |
| Compile.OmittedLooseColumnIsFree | ais/api/views.py:78-83 | A loose column the parser left empty constrains nothing. Changing that column of a row never changes whether the row matches. |
| Compile.MoreSpecificLooseFilter | ais/api/views.py:92-101 | A query that keeps every loose component of another and adds more has a loose filter that extends the other's. |
| Compile.MoreComponentsFewerMatches | ais/api/views.py:92-115 | Adding non-`None` loose components can only shrink the set of matching rows and their count. |
| Compile.BlockNumber | ais/api/views.py:176-180 | A parsed `low_num` is the block number as it is. Without one, the number is `int(full)`: a digit token gives its value, and no token at all gives no number. |
| Compile.BlockStart | ais/api/views.py:186 | `(n // 100) * 100` is a multiple of 100, at most `n`, and more than `n - 100`. |
| Compile.BlockStartUnique | ais/api/views.py:186 | The block start is the only multiple of 100 in `(n - 100, n]`. |
| Compile.SameBlockIffInWindow | ais/api/views.py:186-196 | A number lies in the window of `n`'s block exactly when it has the same block start as `n`. |
| Compile.StreetFilter | ais/api/views.py:187-192 | The block's street filter has only street columns. Each is present exactly when the parser found that street component, with its value. |
| Compile.StreetFilterIsLooseStreetPart | ais/api/views.py:187-192 | The block's street filter equals the address filter's loose part restricted to the street columns. |
| Compile.BlockFilter | ais/api/views.py:176-196 | There is no filter exactly when `int(low_num or full)` fails. Otherwise the window is `[b, b+100)`, where `b` is a multiple of 100 and the parsed number lies in the window. The street filter is the street part of the loose filter, with no range or unit column. |
| Compile.BlockWindowIsSameBlock | ais/api/views.py:186-196 | A row is in the block window exactly when it matches the street and its `address_low` is on the same block as the parsed number. |
| Compile.IntersectionCodes | ais/api/views.py:411-412 | The key is `('', '')` unless both codes are non-empty. If both are non-empty, it fails exactly when one is not an integer. Otherwise it is the decimal text of the smaller code, then of the larger one. |
| Compile.IntersectionSeparatorControlRaises | ais/api/views.py:409-412 | A street code that starts with one of the separators U+001C to U+001F makes `int()` raise, so no intersection key is built. |
| Compile.IntersectionCodesSymmetric | ais/api/views.py:411-412 | Swapping the two codes gives an identical key. |
| Compile.IntersectionFilter | ais/api/views.py:411-417 | The filter has exactly the keys `street_1_code` and `street_2_code`. Both are `''` when either code is missing or empty. Otherwise `street_1_code` is the decimal text of the smaller code and `street_2_code` of the larger. It fails exactly when the key does. |
| Compile.IntersectionFilterSymmetric | ais/api/views.py:411-417 | Swapping `street` and `street_2` gives an identical filter. |
| Compile.DropEmpty | ais/api/views.py:75 | `filter(bool, ...)` keeps no empty string and keeps every non-empty one as often as it occurs. With no empty strings it changes nothing. |
| Compile.DropEmptyKeeps | ais/api/views.py:75 | A string is kept exactly when it is non-empty and in the input. Nothing is kept exactly when every string is empty. |
| Compile.DropEmptyAppend | ais/api/views.py:75 | Dropping empties from a concatenation drops them from each part, so the kept strings stay in order. |
| Compile.TrimmedNonEmpty | ais/api/views.py:75 | The kept pieces are trimmed, non-empty and free of the separator. Every piece that does not strip to nothing is kept, stripped, as often as a piece strips to it. Nothing is kept exactly when every piece strips to nothing. |
| Compile.TrimmedNonEmptyAppend | ais/api/views.py:75 | Stripping and dropping a concatenation of pieces gives the results for each part, concatenated. |
| Compile.TrimmedPiecesPassThrough | ais/api/views.py:75 | Pieces that are already trimmed pass through unchanged. |
| Compile.SubQueries | ais/api/views.py:75 | Every sub-query is trimmed, non-empty and free of `;`. There are no more sub-queries than `;`-pieces, and none exactly when every piece is blank. |
| Compile.SubQueriesKeepNonBlank | ais/api/views.py:75 | Every `;`-piece that is not blank is a sub-query once stripped. Each sub-query occurs exactly as often as a piece strips to it. |
| Compile.SubQueriesOfJoin | ais/api/views.py:75 | Joining trimmed, non-empty, `;`-free queries with `;` and splitting again gives the same queries back. |
| Compile.OwnerTokens | ais/api/views.py:230 | The owner tokens are the upper-cased words of the query: non-empty, with no white space and no lower-case ASCII letter. Together they hold exactly the query's non-white-space characters, upper-cased. |
| Views.ArgNames | ais/api/views.py:394-396 | Iterating the request arguments gives each argument name once. Exactly the names that were given appear. |
| Views.RepeatedArgCountsOnce | ais/api/views.py:394-396 | An argument name given again adds nothing to the length counted by the guard. |
| Views.HasArg | ais/api/views.py:118-121 | A flag such as `include_units` or `opa_only` counts as given exactly when some request argument carries that name, whatever its value. |
| Views.ArgValue | ais/api/views.py:26 | `args.get(name, default)` is the default when the name is absent. Otherwise it is the value of the first argument with that name. |
| Views.Conclude | ais/api/views.py:133-144 | An immediate answer is given as it is. A zero count gives the not-found answer. A positive count gives status 400 exactly when the paginator rejects the page. An accepted page is a 200 listing of that page, except when the plan marks its listing as unrenderable, which the intersection branch does when a street lacks a full name; that rendering fails with the 500 handler's answer (`ais/api/views.py:436-443`). |
| Views.EmptyResultIgnoresPage | ais/api/views.py:133-144 | A zero count is answered with the not-found response before the page is validated. The answer is the same for every page argument and paginator verdict. |
| Views.PageErrorOnlyWithResults | ais/api/views.py:141-144 | A 400 page error is only reported for a non-empty result whose page the paginator rejected. |
| Views.ImmediateIgnoresIndex | ais/api/views.py:581-584 | A plan that answers at once gives the same response whatever the index and paginator would say. |
| Views.AddressesView | ais/api/views.py:73-139 | There is one lookup per `;`-separated sub-query, each with that sub-query's merged filter, and the not-found answer is 404. With no sub-query the answer is the 500 handler's. |
| Views.AddressesFailsIffBlank | ais/api/views.py:75-130 | `/addresses` fails with the 500 handler's answer exactly when every `;`-piece of the query is blank. |
| Views.NormalizedPairsWithLookups | ais/api/views.py:76-134 | The `normalized` list and the lookups have one entry per sub-query, and entry `i` of each comes from the parse of sub-query `i`. |
| Views.AddressesOfJoin | ais/api/views.py:73-134 | A path made of trimmed, `;`-free queries joined by `;` is looked up query by query, in the order written, with the parser's output for each query as the `normalized` list. |
| Views.BlockView | ais/api/views.py:170-208 | An unreadable block number gives 400 "No valid block number provided." with no lookup. Otherwise the lookup is a 100-wide window starting at a multiple of 100 and holding the number, on the query's street filter, excluding non-OPA rows exactly when `opa_only` was given, and an empty result is a 404. |
| Views.BlockSeparatorControlIsNoNumber | ais/api/views.py:176-183 | Without a low number, a raw number token that starts with one of the separators U+001C to U+001F is no block number, and the block route answers 400. |
| Views.BlockViewIsSameBlock | ais/api/views.py:186-196 | The block route finds exactly the rows on the query's street whose low number is on the query's block. |
| Views.OwnerView | ais/api/views.py:228-245 | The owner route always looks up the upper-cased words of the query, keeps only OPA rows exactly when `opa_only` is given, and an empty result is a 404. |
| Views.KindOf | ais/api/views.py:403-581 | The search type is unrecognised exactly when it is none of `intersection_addr`, `address`, `opa_account` and `mapreg`. |
| Views.SearchBranch | ais/api/views.py:403-584 | Only a known type leads to a lookup. A lookup's not-found answer carries code 404, with status 200 exactly for intersections. An immediate answer is either not-found or, only for an intersection whose key fails, the 500 handler's. An intersection looks up its intersection filter, and its plan, not the index query, records whether either street lacks a full name. |
| Views.SearchView | ais/api/views.py:394-589 | The answer is the character-limit error (body code 400, status 404) exactly when the request is over the limit. Within the limit an unknown type gets the 404 not-found answer, and a lookup only happens for a known type. |
| Views.Search | ais/api/views.py:394-589 | `/search` answers with the character-limit error, the 500 handler, a not-found body, a 400 page error or a 200 listing, and a listing only within the limit. |
| Views.SearchLengthGuard | ais/api/views.py:394-398 | `/search` answers with the character-limit error exactly when `len(query) + arg_len >= 60`. |
| Views.TooLongIsNotParsed | ais/api/views.py:398-400 | Over the limit, the parser's output makes no difference to the answer. |
| Views.SearchDispatch | ais/api/views.py:403-584 | An unknown type gets 404 with no lookup. `address` looks up its merged filter. `opa_account` and `mapreg` look up the stripped query itself. `intersection_addr` answers 500 exactly when the key fails and otherwise looks up the intersection filter, flagged when either street lacks a full name, with a status-200, code-404 not-found answer. Only a known type is ever looked up. |
| Views.AddressesAgreeWithSearch | ais/api/views.py:86-121 | The `/addresses` lookup for a sub-query is the lookup the `address` branch of `/search` builds for that query, with the same not-found answer. |
| Views.IntersectionSearchOrderFree | ais/api/views.py:405-433 | An intersection search gives the same plan whichever street the parser names first, when naming the other street first swaps both codes and full names. |
| Views.IntersectionListingNeedsNames | ais/api/views.py:436-446 | A found intersection on a valid page answers with the 500 handler's response exactly when either street lacks a full name, and with a 200 listing exactly when both have one. |
| Views.SearchEmptyIsNotFound | ais/api/views.py:490-496 | On `/search`, an empty result is always answered as not-found, never as a page error. |

## Left out

- HTTP plumbing is not modelled: Flask routing, `Response`/`json_response`, `cache_for`, and the JSON serialisers.
- Echoed metadata is not modelled. This covers the `query`/`normalized` entries of error bodies and listings (except the normalised list itself, see `NormalizedAddresses`), the `srid` default of 4326, and pagination metadata.
- `PassyunkParser` is an external library. Its output is an input datatype, with `low_num` and `high_num_full` as integers and every other component, including the street codes, as optional text.
- Several query-class methods are named but not given a meaning. These are `filter_by_unit_type`, `include_child_units`, `exclude_non_opa`, `exclude_children`, `order_by_address`, `order_by_intersection`, `choose_one`, `from_self`, `union` and `filter_by_owner`. Their bodies belong to the models package, which is not part of this model. The model records their arguments in `DbQuery`, and the number of rows is a parameter.
- `QueryPaginator` and `json_error` are not part of this model. Page validation is a parameter, and a rejected page is answered with status 400, which is the code the view passes to `json_error`.
- The account, PWD parcel and DOR parcel routes (`ais/api/views.py:262-381`) are not modelled. They are single-column identifier lookups. The PWD and DOR routes have the same count-then-page tail as the `opa_account` and `mapreg` search branches, which are modelled. `/account` differs from that tail in three ways: it also applies `exclude_non_opa` (`ais/api/views.py:271`); after a valid page it answers a second 404, "Could not find property with account number.", when the first row is missing (`ais/api/views.py:293-298`); and it serialises every matching row rather than the requested page (`ais/api/views.py:306`).
- Filters.FilterRows: compares values structurally. The database's coercion between a text `full` token and the integer `address_low` column is not modelled.
- PyText.Upper: upper-cases ASCII letters only. Python's `str.upper()` also maps other scripts and can change the length (`'ß'` becomes `'SS'`).
- PyText.ParseInt: accepts ASCII digits only. Python's `int()` also accepts other Unicode decimal digits.
- PyText.ParseInt: the contract pins down digit strings, a minus sign before digits, strings without any digit, and strings with a separator control U+001C to U+001F at either end. A leading `+`, surrounding white space and single underscores between digits are handled by the definition but not restated in the contract. The white space `int()` skips is its own set, `PyText.IsIntSpace`: tab to carriage return, the space, and the non-ASCII characters `str.isspace()` accepts.
- The 500 answers model an uncaught exception. They use Flask's generic handler body, whose description text is not modelled.

=== FILE: base.dfy ===
/** Small wrappers shared by the whole model. */
module Base {

  /** A Python value that may be `None`. */
  datatype Option<T> = None | Some(value: T)

  /** The outcome of a Python expression that may raise an exception the
      route does not catch (Flask then answers through its 500 handler). */
  datatype Result<T> = Ok(value: T) | Raised
}

=== FILE: compile.dfy ===
/** The query-to-filter logic of the views: the loose/strict address filter,
    the 100-number block window, the order-independent intersection key,
    the `;`-separated sub-queries and the owner-name tokens. */
module Compile {
  import opened Base
  import opened PyText
  import opened Filters
  import opened ParserOutput

  const LooseColumns: set<Column> := {StreetName, AddressLow, AddressLowSuffix,
    AddressLowFrac, StreetPredir, StreetPostdir, StreetSuffix}
  /** The loose columns in the order the views name them. */
  const LooseOrder: seq<Column> := [StreetName, AddressLow, AddressLowSuffix,
    AddressLowFrac, StreetPredir, StreetPostdir, StreetSuffix]
  const StrictColumns: set<Column> := {AddressHigh, UnitNum}
  const StreetColumns: set<Column> := {StreetName, StreetPredir, StreetPostdir, StreetSuffix}

  function OptStr(o: Option<string>): Option<Value>
  {
    if o.Some? then Some(Str(o.value)) else None
  }

  // ---------------------------------------------------------------------
  // Address filter: loose (omission ignored) and strict (omission = NULL)
  // ---------------------------------------------------------------------

  /** The low number when the parser found one, otherwise the raw number token. */
  function LowNumOrFull(a: AddressNumber): Option<Value>
  {
    if a.lowNum.Some? then Some(Int(a.lowNum.value)) else OptStr(a.full)
  }

  /** The keyword arguments of the loose `NotNoneDict`, in source order. */
  function LooseArgs(c: Components): (args: seq<(Column, Option<Value>)>)
    ensures |args| == 7 && DistinctKeys(args)
    ensures forall i :: 0 <= i < 7 ==> args[i].0 == LooseOrder[i]
  {
    [ (StreetName, OptStr(c.street.name)),
      (AddressLow, LowNumOrFull(c.address)),
      (AddressLowSuffix, OptStr(c.address.addrSuffix)),
      (AddressLowFrac, OptStr(c.address.fractional)),
      (StreetPredir, OptStr(c.street.predir)),
      (StreetPostdir, OptStr(c.street.postdir)),
      (StreetSuffix, OptStr(c.street.suffix)) ]
  }

  /** The loose filter: one entry per component the parser found, none for a
      component it did not, so an omitted component places no constraint. */
  function LooseFilter(c: Components): (f: Filter)
    ensures f.Keys <= LooseColumns
    ensures StreetName in f <==> c.street.name.Some?
    ensures c.street.name.Some? ==> f[StreetName] == Str(c.street.name.value)
    ensures StreetPredir in f <==> c.street.predir.Some?
    ensures c.street.predir.Some? ==> f[StreetPredir] == Str(c.street.predir.value)
    ensures StreetPostdir in f <==> c.street.postdir.Some?
    ensures c.street.postdir.Some? ==> f[StreetPostdir] == Str(c.street.postdir.value)
    ensures StreetSuffix in f <==> c.street.suffix.Some?
    ensures c.street.suffix.Some? ==> f[StreetSuffix] == Str(c.street.suffix.value)
    ensures AddressLowSuffix in f <==> c.address.addrSuffix.Some?
    ensures c.address.addrSuffix.Some? ==> f[AddressLowSuffix] == Str(c.address.addrSuffix.value)
    ensures AddressLowFrac in f <==> c.address.fractional.Some?
    ensures c.address.fractional.Some? ==> f[AddressLowFrac] == Str(c.address.fractional.value)
    ensures AddressLow in f <==> c.address.lowNum.Some? || c.address.full.Some?
    ensures c.address.lowNum.Some? ==> f[AddressLow] == Int(c.address.lowNum.value)
    ensures c.address.lowNum.None? && c.address.full.Some? ==> f[AddressLow] == Str(c.address.full.value)
  {
    var args := LooseArgs(c);
    assert forall i :: 0 <= i < |args| ==> args[i].0 in LooseColumns;
    var f := NotNoneDict(args);
    assert args[0].0 == StreetName && args[1].0 == AddressLow && args[2].0 == AddressLowSuffix;
    assert args[3].0 == AddressLowFrac && args[4].0 == StreetPredir;
    assert args[5].0 == StreetPostdir && args[6].0 == StreetSuffix;
    f
  }

  /** Python's `s or default` for an optional string. */
  function StrOr(o: Option<string>, default: string): string
  {
    if o.Some? && o.value != "" then o.value else default
  }

  /** The strict filter: both columns are always constrained. A missing high
      number asks for a non-range address (`address_high IS NULL`), a missing
      or empty unit number asks for a unit-less one (`unit_num = ''`). */
  function StrictFilter(c: Components): (f: Filter)
    ensures f.Keys == StrictColumns
    ensures f[AddressHigh] == Null <==> c.address.highNumFull.None?
    ensures c.address.highNumFull.Some? ==> f[AddressHigh] == Int(c.address.highNumFull.value)
    ensures f[UnitNum] == Str("") <==> c.addressUnit.unitNum.None? || c.addressUnit.unitNum == Some("")
    ensures c.addressUnit.unitNum.Some? ==> f[UnitNum] == Str(c.addressUnit.unitNum.value)
  {
    var high := if c.address.highNumFull.Some? then Int(c.address.highNumFull.value) else Null;
    map[AddressHigh := high, UnitNum := Str(StrOr(c.addressUnit.unitNum, ""))]
  }

  /** The two halves of an address filter, kept apart by name. */
  datatype FilterSpec = FilterSpec(loose: Filter, strict: Filter)
  {
    /** A copy of the strict half updated with the loose half. */
    function Merged(): Filter
    {
      Update(strict, loose)
    }
  }

  /** The address filter of one parsed query. */
  function AddressFilter(c: Components): (spec: FilterSpec)
    ensures spec.loose == LooseFilter(c) && spec.strict == StrictFilter(c)
    ensures spec.loose.Keys !! spec.strict.Keys
    ensures spec.Merged().Keys == spec.loose.Keys + StrictColumns
  {
    var loose, strict := LooseFilter(c), StrictFilter(c);
    assert loose.Keys <= LooseColumns && strict.Keys == StrictColumns;
    assert LooseColumns !! StrictColumns;
    FilterSpec(loose, strict)
  }

  /** A row matches the merged filter exactly when it matches both halves,
      and the merge restricted to either half's columns gives that half back. */
  lemma MergedAsksForBoth(c: Components, row: Row)
    ensures var spec := AddressFilter(c);
      && (Matches(row, spec.Merged()) <==> Matches(row, spec.loose) && Matches(row, spec.strict))
      && Restrict(spec.Merged(), spec.loose.Keys) == spec.loose
      && Restrict(spec.Merged(), spec.strict.Keys) == spec.strict
  {
    var spec := AddressFilter(c);
    MergeDisjoint(row, spec.strict, spec.loose);
  }

  /** Without a unit number (or with an empty one) only unit-less rows match. */
  lemma NoUnitMatchesOnlyUnitless(c: Components, row: Row)
    requires c.addressUnit.unitNum.None? || c.addressUnit.unitNum == Some("")
    requires Matches(row, AddressFilter(c).Merged())
    ensures UnitNum in row && row[UnitNum] == Str("")
  {
    var spec := AddressFilter(c);
    assert UnitNum in spec.Merged() && spec.Merged()[UnitNum] == spec.strict[UnitNum];
  }

  /** Without a high number only non-range rows match. */
  lemma NoHighNumberMatchesOnlyNonRange(c: Components, row: Row)
    requires c.address.highNumFull.None?
    requires Matches(row, AddressFilter(c).Merged())
    ensures AddressHigh in row && row[AddressHigh] == Null
  {
    var spec := AddressFilter(c);
    assert AddressHigh in spec.Merged() && spec.Merged()[AddressHigh] == spec.strict[AddressHigh];
  }

  /** A loose column the parser left empty constrains nothing: changing that
      column of a row never changes whether the row matches. */
  lemma OmittedLooseColumnIsFree(c: Components, col: Column, row: Row, v: Value)
    requires col in LooseColumns && col !in LooseFilter(c)
    ensures Matches(row, AddressFilter(c).Merged()) <==> Matches(row[col := v], AddressFilter(c).Merged())
  {
    var spec := AddressFilter(c);
    assert col !in spec.strict;
    UnfilteredColumnIsFree(spec.Merged(), col, row, v);
  }

  /** Changing a column a filter does not mention never changes a match. */
  lemma UnfilteredColumnIsFree(m: Filter, col: Column, row: Row, v: Value)
    requires col !in m
    ensures Matches(row, m) <==> Matches(row[col := v], m)
  {
    var row' := row[col := v];
    assert forall k :: k in m && k in row ==> k in row' && row'[k] == row[k];
    assert forall k :: k in m && k in row' ==> k in row && row'[k] == row[k];
  }

  /** `c2` says at least what `c1` says in every loose component and the
      same in the strict ones. */
  predicate MoreSpecific(c2: Components, c1: Components)
  {
    && (forall i :: 0 <= i < 7 && LooseArgs(c1)[i].1.Some? ==> LooseArgs(c2)[i].1 == LooseArgs(c1)[i].1)
    && StrictFilter(c2) == StrictFilter(c1)
  }

  /** A more specific query asks for everything the less specific one asks for. */
  lemma MoreSpecificLooseFilter(c1: Components, c2: Components)
    requires MoreSpecific(c2, c1)
    ensures SubFilter(LooseFilter(c1), LooseFilter(c2))
  {
    var a1, a2 := LooseArgs(c1), LooseArgs(c2);
    var l1, l2 := NotNoneDict(a1), NotNoneDict(a2);
    forall k | k in l1
      ensures k in l2 && l2[k] == l1[k]
    {
      assert k in KeysOf(a1);
      var i :| 0 <= i < |a1| && a1[i].0 == k;
      assert a2[i].0 == LooseOrder[i] == k;
      assert a1[i].1.Some?;
    }
  }

  /** Supplying more loose components can only shrink the matching rows. */
  lemma MoreComponentsFewerMatches(c1: Components, c2: Components, rows: seq<Row>)
    requires MoreSpecific(c2, c1)
    ensures forall x :: x in FilterRows(rows, AddressFilter(c2).Merged()) ==> x in FilterRows(rows, AddressFilter(c1).Merged())
    ensures |FilterRows(rows, AddressFilter(c2).Merged())| <= |FilterRows(rows, AddressFilter(c1).Merged())|
  {
    MoreSpecificLooseFilter(c1, c2);
    var s1, s2 := AddressFilter(c1), AddressFilter(c2);
    assert SubFilter(s1.Merged(), s2.Merged()) by {
      forall k | k in s1.Merged()
        ensures k in s2.Merged() && s2.Merged()[k] == s1.Merged()[k]
      {
        if k in s1.loose {
          assert s1.Merged()[k] == s1.loose[k];
        } else {
          assert k in s1.strict && k in s2.strict;
          assert s1.Merged()[k] == s1.strict[k];
        }
      }
    }
    StrongerFilterKeepsFewer(rows, s1.Merged(), s2.Merged());
  }

  // ---------------------------------------------------------------------
  // Block window
  // ---------------------------------------------------------------------

  /** `int()` of the low number, or of the raw number token when there is
      no low number; `None` where Python raises TypeError (no token at all)
      or ValueError (a token that is not a number). */
  function BlockNumber(a: AddressNumber): (r: Option<int>)
    ensures a.lowNum.Some? ==> r == a.lowNum
    ensures a.lowNum.None? && a.full.None? ==> r.None?
    ensures a.lowNum.None? && a.full.Some? ==> r == ParseInt(a.full.value)
    ensures a.lowNum.None? && a.full.Some? && |a.full.value| > 0 && AllDigits(a.full.value) ==>
      r == Some(DigitsValue(a.full.value))
  {
    if a.lowNum.Some? then Some(a.lowNum.value)
    else if a.full.Some? then ParseInt(a.full.value)
    else None
  }

  /** The start of the hundred-block holding `n`. Python's floor division
      by a positive number agrees with Dafny's `/`. */
  function BlockStart(n: int): (b: int)
    ensures b % 100 == 0
    ensures b <= n < b + 100
  {
    (n / 100) * 100
  }

  /** The block of `n` is the only multiple of 100 within 100 below `n`. */
  lemma BlockStartUnique(n: int, m: int)
    requires m % 100 == 0 && m <= n < m + 100
    ensures m == BlockStart(n)
  {
    var b := BlockStart(n);
    assert (m - b) % 100 == 0 by {
      assert m == (m / 100) * 100;
      assert b == (b / 100) * 100;
      assert m - b == (m / 100 - b / 100) * 100;
    }
    assert -100 < m - b < 100;
  }

  /** A number lies in the window of `n`'s block exactly when it is on the
      same block as `n`. */
  lemma SameBlockIffInWindow(n: int, v: int)
    ensures BlockStart(n) <= v < BlockStart(n) + 100 <==> BlockStart(v) == BlockStart(n)
  {
    if BlockStart(n) <= v < BlockStart(n) + 100 {
      BlockStartUnique(v, BlockStart(n));
    }
  }

  /** The half-open window `[low, high)` on `address_low`, with the street
      columns compared as in `filter_by`. */
  datatype BlockWindow = BlockWindow(street: Filter, low: int, high: int)

  predicate InWindow(row: Row, w: BlockWindow)
  {
    && Matches(row, w.street)
    && AddressLow in row && row[AddressLow].Int?
    && w.low <= row[AddressLow].i < w.high
  }

  /** The street part of the address filter, as the block view builds it:
      one entry per street component the parser found. */
  function StreetFilter(c: Components): (f: Filter)
    ensures f.Keys <= StreetColumns
    ensures StreetName in f <==> c.street.name.Some?
    ensures c.street.name.Some? ==> f[StreetName] == Str(c.street.name.value)
    ensures StreetPredir in f <==> c.street.predir.Some?
    ensures c.street.predir.Some? ==> f[StreetPredir] == Str(c.street.predir.value)
    ensures StreetPostdir in f <==> c.street.postdir.Some?
    ensures c.street.postdir.Some? ==> f[StreetPostdir] == Str(c.street.postdir.value)
    ensures StreetSuffix in f <==> c.street.suffix.Some?
    ensures c.street.suffix.Some? ==> f[StreetSuffix] == Str(c.street.suffix.value)
  {
    var args := [ (StreetName, OptStr(c.street.name)),
                  (StreetPredir, OptStr(c.street.predir)),
                  (StreetPostdir, OptStr(c.street.postdir)),
                  (StreetSuffix, OptStr(c.street.suffix)) ];
    assert forall i :: 0 <= i < |args| ==> args[i].0 in StreetColumns;
    var f := NotNoneDict(args);
    assert args[0].0 == StreetName && args[1].0 == StreetPredir;
    assert args[2].0 == StreetPostdir && args[3].0 == StreetSuffix;
    f
  }

  /** The block's street filter is the address filter's loose part cut down
      to the street columns. */
  lemma StreetFilterIsLooseStreetPart(c: Components)
    ensures StreetFilter(c) == Restrict(LooseFilter(c), StreetColumns)
  {
    var f, l := StreetFilter(c), LooseFilter(c);
    var r := Restrict(l, StreetColumns);
    forall k | k in StreetColumns
      ensures (k in f <==> k in r) && (k in f ==> f[k] == r[k])
    {
      assert k == StreetName || k == StreetPredir || k == StreetPostdir || k == StreetSuffix;
    }
    assert f.Keys == r.Keys;
    assert forall k :: k in f ==> f[k] == r[k];
    MapExt(f, r);
  }

  /** The block filter of a parsed query: none when no block number can be
      read, otherwise the street columns and the 100-wide window holding it,
      with no range or unit constraint. */
  function BlockFilter(c: Components): (r: Option<BlockWindow>)
    ensures r.None? <==> BlockNumber(c.address).None?
    ensures r.Some? ==>
      var n := BlockNumber(c.address).value;
      && r.value.low % 100 == 0
      && r.value.high == r.value.low + 100
      && r.value.low <= n < r.value.high
    ensures r.Some? ==> r.value.street == StreetFilter(c)
  {
    match BlockNumber(c.address)
    case None => None
    case Some(n) =>
      var b := BlockStart(n);
      Some(BlockWindow(StreetFilter(c), b, b + 100))
  }

  /** A row is in the block window exactly when it matches the street and its
      low number is on the same block as the query's number. */
  lemma BlockWindowIsSameBlock(c: Components, row: Row)
    requires BlockFilter(c).Some?
    ensures var w := BlockFilter(c).value;
      InWindow(row, w) <==>
        && Matches(row, StreetFilter(c))
        && AddressLow in row && row[AddressLow].Int?
        && BlockStart(row[AddressLow].i) == BlockStart(BlockNumber(c.address).value)
  {
    var n := BlockNumber(c.address).value;
    BlockStartUnique(n, BlockFilter(c).value.low);
    if AddressLow in row && row[AddressLow].Int? {
      SameBlockIffInWindow(n, row[AddressLow].i);
    }
  }

  // ---------------------------------------------------------------------
  // Intersection key
  // ---------------------------------------------------------------------

  /** Python truthiness of an optional string. */
  predicate Truthy(o: Option<string>)
  {
    o.Some? && o.value != ""
  }

  function Min(a: int, b: int): int { if a <= b then a else b }
  function Max(a: int, b: int): int { if a <= b then b else a }

  /** The intersection key: the decimal text of the smaller and of the
      larger street code when both codes are non-empty, two empty strings
      otherwise, and `Raised` when a code is not a number. */
  function IntersectionCodes(code1: Option<string>, code2: Option<string>): (r: Result<(string, string)>)
    ensures !(Truthy(code1) && Truthy(code2)) ==> r == Ok(("", ""))
    ensures Truthy(code1) && Truthy(code2) ==>
      (r.Ok? <==> ParseInt(code1.value).Some? && ParseInt(code2.value).Some?)
    ensures r.Ok? && Truthy(code1) && Truthy(code2) ==>
      var a, b := ParseInt(code1.value).value, ParseInt(code2.value).value;
      && r.value == (Decimal(Min(a, b)), Decimal(Max(a, b)))
      && ParseInt(r.value.0) == Some(Min(a, b))
      && ParseInt(r.value.1) == Some(Max(a, b))
    ensures r.Ok? && r.value != ("", "") ==>
      && ParseInt(r.value.0).Some? && ParseInt(r.value.1).Some?
      && ParseInt(r.value.0).value <= ParseInt(r.value.1).value
  {
    if Truthy(code1) && Truthy(code2) then
      match (ParseInt(code1.value), ParseInt(code2.value))
      case (Some(a), Some(b)) =>
        DecimalRoundTrip(Min(a, b));
        DecimalRoundTrip(Max(a, b));
        Ok((Decimal(Min(a, b)), Decimal(Max(a, b))))
      case _ => Raised
    else Ok(("", ""))
  }

  /** A street code that starts with one of the ASCII separator controls
      U+001C to U+001F makes `int()` raise, so the key is not built. */
  lemma IntersectionSeparatorControlRaises(code1: Option<string>, code2: Option<string>)
    requires Truthy(code1) && Truthy(code2)
    requires IsSeparatorControl(code1.value[0])
    ensures IntersectionCodes(code1, code2).Raised?
  {
  }

  /** Naming the streets in either order gives the same key. */
  lemma IntersectionCodesSymmetric(code1: Option<string>, code2: Option<string>)
    ensures IntersectionCodes(code1, code2) == IntersectionCodes(code2, code1)
  {
    if Truthy(code1) && Truthy(code2) {
      var p1, p2 := ParseInt(code1.value), ParseInt(code2.value);
      if p1.Some? && p2.Some? {
        assert Min(p1.value, p2.value) == Min(p2.value, p1.value);
        assert Max(p1.value, p2.value) == Max(p2.value, p1.value);
      }
    }
  }

  /** The strict intersection filter `street_1_code`, `street_2_code`. */
  function IntersectionFilter(s1: Street, s2: Street): (r: Result<Filter>)
    ensures r.Ok? ==> r.value.Keys == {Street1Code, Street2Code}
    ensures r.Ok? <==> IntersectionCodes(s1.streetCode, s2.streetCode).Ok?
    ensures r.Ok? && !(Truthy(s1.streetCode) && Truthy(s2.streetCode)) ==>
      r.value[Street1Code] == Str("") && r.value[Street2Code] == Str("")
    ensures r.Ok? && Truthy(s1.streetCode) && Truthy(s2.streetCode) ==>
      var a, b := ParseInt(s1.streetCode.value).value, ParseInt(s2.streetCode.value).value;
      && r.value[Street1Code] == Str(Decimal(Min(a, b)))
      && r.value[Street2Code] == Str(Decimal(Max(a, b)))
  {
    match IntersectionCodes(s1.streetCode, s2.streetCode)
    case Raised => Raised
    case Ok((lo, hi)) => Ok(map[Street1Code := Str(lo), Street2Code := Str(hi)])
  }

  /** Swapping the two streets gives an identical filter. */
  lemma IntersectionFilterSymmetric(s1: Street, s2: Street)
    ensures IntersectionFilter(s1, s2) == IntersectionFilter(s2, s1)
  {
    IntersectionCodesSymmetric(s1.streetCode, s2.streetCode);
  }

  // ---------------------------------------------------------------------
  // `;`-separated sub-queries
  // ---------------------------------------------------------------------

  /** Non-empty with no white space at either end: a fixed point of `strip()`. */
  predicate IsTrimmed(s: string)
  {
    |s| > 0 && !IsSpace(s[0]) && !IsSpace(s[|s| - 1])
  }

  /** A stripped piece is empty or trimmed, and stripping brings in no
      separator. */
  lemma StrippedPieces(pieces: seq<string>, sep: char)
    requires forall j :: 0 <= j < |pieces| ==> sep !in pieces[j]
    ensures forall j :: 0 <= j < |pieces| ==>
      var y := Strip(pieces[j], IsSpace); (y == "" || IsTrimmed(y)) && sep !in y
  {
    forall j | 0 <= j < |pieces|
      ensures var y := Strip(pieces[j], IsSpace); (y == "" || IsTrimmed(y)) && sep !in y
    {
      StripNoNewChar(pieces[j], IsSpace, sep);
    }
  }

  /** Trimmed pieces are their own stripped forms. */
  lemma StrippedTrimmedPieces(pieces: seq<string>)
    ensures forall j :: 0 <= j < |pieces| && IsTrimmed(pieces[j]) ==> Strip(pieces[j], IsSpace) == pieces[j]
  {
    forall j | 0 <= j < |pieces| && IsTrimmed(pieces[j])
      ensures Strip(pieces[j], IsSpace) == pieces[j]
    {
      StripKeepsStripped(pieces[j], IsSpace);
    }
  }

  /** Each piece stripped of surrounding white space. A stripped piece is
      empty or trimmed, and stripping brings in no separator. */
  function StripAll(pieces: seq<string>, sep: char): (r: seq<string>)
    requires forall j :: 0 <= j < |pieces| ==> sep !in pieces[j]
    ensures |r| == |pieces|
    ensures forall j :: 0 <= j < |pieces| ==> r[j] == Strip(pieces[j], IsSpace)
    ensures forall j :: 0 <= j < |r| ==> (r[j] == "" || IsTrimmed(r[j])) && sep !in r[j]
    ensures (forall j :: 0 <= j < |pieces| ==> IsTrimmed(pieces[j])) ==> r == pieces
  {
    StrippedPieces(pieces, sep);
    StrippedTrimmedPieces(pieces);
    seq(|pieces|, j requires 0 <= j < |pieces| => Strip(pieces[j], IsSpace))
  }

  /** `filter(bool, xs)` on strings: the non-empty ones, in order, each as
      often as in `xs`. */
  function DropEmpty(xs: seq<string>): (r: seq<string>)
    ensures |r| <= |xs|
    ensures forall i :: 0 <= i < |r| ==> r[i] != ""
    ensures forall x :: x != "" ==> multiset(r)[x] == multiset(xs)[x]
    ensures (forall j :: 0 <= j < |xs| ==> xs[j] != "") ==> r == xs
  {
    if |xs| == 0 then []
    else
      var rest := DropEmpty(xs[1..]);
      assert xs == [xs[0]] + xs[1..];
      assert multiset(xs) == multiset{xs[0]} + multiset(xs[1..]);
      if xs[0] == "" then rest else [xs[0]] + rest
  }

  /** What `DropEmpty` keeps: exactly the non-empty strings of `xs`, and
      nothing at all just when every string is empty. */
  lemma DropEmptyKeeps(xs: seq<string>)
    ensures forall y :: y in DropEmpty(xs) <==> y != "" && y in xs
    ensures |DropEmpty(xs)| == 0 <==> forall j :: 0 <= j < |xs| ==> xs[j] == ""
  {
    var r := DropEmpty(xs);
    forall y
      ensures y in r <==> y != "" && y in xs
    {
      if y in r {
        assert multiset(r)[y] > 0;
      }
      if y != "" && y in xs {
        assert multiset(xs)[y] > 0;
      }
    }
    if |r| > 0 {
      assert r[0] in r;
    } else {
      forall j | 0 <= j < |xs|
        ensures xs[j] == ""
      {
        assert xs[j] in xs;
      }
    }
  }

  /** Dropping empties works element by element, so it keeps the order. */
  lemma {:induction false} DropEmptyAppend(x1: seq<string>, x2: seq<string>)
    ensures DropEmpty(x1 + x2) == DropEmpty(x1) + DropEmpty(x2)
    decreases |x1|
  {
    if |x1| > 0 {
      assert (x1 + x2)[0] == x1[0] && (x1 + x2)[1..] == x1[1..] + x2;
      DropEmptyAppend(x1[1..], x2);
    } else {
      assert x1 + x2 == x2;
    }
  }

  /** Every piece is white space only. */
  predicate AllBlank(pieces: seq<string>)
  {
    forall j :: 0 <= j < |pieces| ==> Strip(pieces[j], IsSpace) == ""
  }

  /** Of pieces that are each empty or trimmed, the non-empty ones kept
      are trimmed. */
  lemma KeptStrippedAreTrimmed(xs: seq<string>, sep: char)
    requires forall j :: 0 <= j < |xs| ==> (xs[j] == "" || IsTrimmed(xs[j])) && sep !in xs[j]
    ensures forall i :: 0 <= i < |DropEmpty(xs)| ==> IsTrimmed(DropEmpty(xs)[i]) && sep !in DropEmpty(xs)[i]
  {
    var r := DropEmpty(xs);
    DropEmptyKeeps(xs);
    forall i | 0 <= i < |r|
      ensures IsTrimmed(r[i]) && sep !in r[i]
    {
      assert r[i] in r;
      var j :| 0 <= j < |xs| && xs[j] == r[i];
    }
  }

  /** The pieces stripped, with those that strip to nothing dropped. */
  function TrimmedNonEmpty(pieces: seq<string>, sep: char): (r: seq<string>)
    requires forall j :: 0 <= j < |pieces| ==> sep !in pieces[j]
    ensures |r| <= |pieces|
    ensures forall i :: 0 <= i < |r| ==> IsTrimmed(r[i]) && sep !in r[i]
    ensures var stripped := StripAll(pieces, sep);
      forall j :: 0 <= j < |stripped| && stripped[j] != "" ==> stripped[j] in r
    ensures forall x :: x != "" ==> multiset(r)[x] == multiset(StripAll(pieces, sep))[x]
    ensures var stripped := StripAll(pieces, sep);
      |r| == 0 <==> forall j :: 0 <= j < |stripped| ==> stripped[j] == ""
  {
    var stripped := StripAll(pieces, sep);
    DropEmptyKeeps(stripped);
    KeptStrippedAreTrimmed(stripped, sep);
    DropEmpty(stripped)
  }

  /** Pieces that are already trimmed pass through unchanged. */
  lemma TrimmedPiecesPassThrough(pieces: seq<string>, sep: char)
    requires forall j :: 0 <= j < |pieces| ==> IsTrimmed(pieces[j]) && sep !in pieces[j]
    ensures TrimmedNonEmpty(pieces, sep) == pieces
  {
    var stripped := StripAll(pieces, sep);
    assert stripped == pieces;
    assert forall j :: 0 <= j < |stripped| ==> stripped[j] != "";
  }

  /** Stripping and dropping works piece by piece: on a concatenation it is
      the concatenation of the results, so the kept pieces stay in order. */
  lemma TrimmedNonEmptyAppend(p1: seq<string>, p2: seq<string>, sep: char)
    requires forall j :: 0 <= j < |p1| ==> sep !in p1[j]
    requires forall j :: 0 <= j < |p2| ==> sep !in p2[j]
    ensures TrimmedNonEmpty(p1 + p2, sep) == TrimmedNonEmpty(p1, sep) + TrimmedNonEmpty(p2, sep)
  {
    StripAllAppend(p1, p2, sep);
    DropEmptyAppend(StripAll(p1, sep), StripAll(p2, sep));
  }

  lemma StripAllAppend(p1: seq<string>, p2: seq<string>, sep: char)
    requires forall j :: 0 <= j < |p1| ==> sep !in p1[j]
    requires forall j :: 0 <= j < |p2| ==> sep !in p2[j]
    ensures forall j :: 0 <= j < |p1 + p2| ==> sep !in (p1 + p2)[j]
    ensures StripAll(p1 + p2, sep) == StripAll(p1, sep) + StripAll(p2, sep)
  {
    var p := p1 + p2;
    assert forall j :: 0 <= j < |p1| ==> p[j] == p1[j];
    assert forall j :: |p1| <= j < |p| ==> p[j] == p2[j - |p1|];
    var a, b, c := StripAll(p1, sep), StripAll(p2, sep), StripAll(p, sep);
    forall i | 0 <= i < |c|
      ensures c[i] == (a + b)[i]
    {
      assert c[i] == Strip(p[i], IsSpace);
      if i < |p1| {
        assert c[i] == Strip(p1[i], IsSpace) == a[i];
      } else {
        assert c[i] == Strip(p2[i - |p1|], IsSpace) == b[i - |p1|];
      }
    }
    assert |c| == |a + b|;
  }

  /** The stripped, non-empty `;`-separated parts of the query. */
  function SubQueries(query: string): (subs: seq<string>)
    ensures |subs| <= |SplitOn(query, ';')|
    ensures forall i :: 0 <= i < |subs| ==> IsTrimmed(subs[i]) && ';' !in subs[i]
    ensures |subs| == 0 <==> AllBlank(SplitOn(query, ';'))
  {
    var pieces := SplitOn(query, ';');
    var stripped := StripAll(pieces, ';');
    assert AllBlank(pieces) <==> forall j :: 0 <= j < |stripped| ==> stripped[j] == "";
    TrimmedNonEmpty(pieces, ';')
  }

  /** Every `;`-piece that is not blank is a sub-query once stripped, and
      each sub-query occurs exactly as often as a piece strips to it. */
  lemma SubQueriesKeepNonBlank(query: string)
    ensures var pieces, subs := SplitOn(query, ';'), SubQueries(query);
      forall j :: 0 <= j < |pieces| && Strip(pieces[j], IsSpace) != "" ==> Strip(pieces[j], IsSpace) in subs
    ensures forall x :: x != "" ==> multiset(SubQueries(query))[x] == multiset(StripAll(SplitOn(query, ';'), ';'))[x]
  {
    var pieces := SplitOn(query, ';');
    var stripped := StripAll(pieces, ';');
    assert TrimmedNonEmpty(pieces, ';') == SubQueries(query);
    assert forall j :: 0 <= j < |pieces| ==> stripped[j] == Strip(pieces[j], IsSpace);
  }

  /** Joining trimmed, non-empty, `;`-free queries with `;` and splitting
      them again gives the same queries back. */
  lemma SubQueriesOfJoin(qs: seq<string>)
    requires |qs| > 0
    requires forall i :: 0 <= i < |qs| ==> IsTrimmed(qs[i]) && ';' !in qs[i]
    ensures SubQueries(JoinWith(qs, ';')) == qs
  {
    SplitJoinRoundTrip(qs, ';');
    TrimmedPiecesPassThrough(qs, ';');
  }

  // ---------------------------------------------------------------------
  // Owner tokens
  // ---------------------------------------------------------------------

  /** The owner-name tokens: the upper-cased words of the query. */
  function OwnerTokens(query: string): (t: seq<string>)
    ensures t == UpperAll(Words(query))
    ensures forall i :: 0 <= i < |t| ==> |t[i]| > 0 && NoSpace(t[i])
    ensures forall i, k :: 0 <= i < |t| && 0 <= k < |t[i]| ==> !IsLowerAscii(t[i][k])
    ensures Concat(t) == RemoveSpace(Upper(query))
  {
    WordsOfUpper(query);
    WordsKeepCharacters(Upper(query));
    Words(Upper(query))
  }
}

=== FILE: filters.dfy ===
/** Column filters as the views hand them to the index: the `NotNoneDict`
    helper that builds them and the equality-conjunction meaning of
    SQLAlchemy's `filter_by(**filters)`. */
module Filters {
  import opened Base

  /** A column value in the index, or a value a filter compares against it.
      `Null` is SQL NULL (Python `None`). */
  datatype Value = Null | Int(i: int) | Str(s: string)

  /** The columns the views filter on: the address summary table's street
      and number columns and the street intersection table's two codes. */
  datatype Column =
    | StreetName | StreetPredir | StreetPostdir | StreetSuffix
    | AddressLow | AddressLowSuffix | AddressLowFrac | AddressHigh | UnitNum
    | Street1Code | Street2Code

  /** One index row: column to value. */
  type Row = map<Column, Value>

  /** The keyword arguments of one `filter_by` call. */
  type Filter = map<Column, Value>

  /** `filter_by(**f)`: every filtered column equals the given value;
      a `None` value compiles to `IS NULL`, so `Null` matches only `Null`. */
  predicate Matches(row: Row, f: Filter)
  {
    forall k :: k in f ==> k in row && row[k] == f[k]
  }

  /** The rows of `rows` that a `filter_by(**f)` keeps, in their order.
      Distinct records may agree on every filtered column, so a kept row
      occurs as often as it does in `rows`. */
  function FilterRows(rows: seq<Row>, f: Filter): (r: seq<Row>)
    ensures |r| <= |rows|
    ensures forall x :: x in r <==> x in rows && Matches(x, f)
    ensures forall x :: multiset(r)[x] == if Matches(x, f) then multiset(rows)[x] else 0
  {
    if |rows| == 0 then []
    else
      var rest := FilterRows(rows[1..], f);
      assert rows == [rows[0]] + rows[1..];
      assert multiset(rows) == multiset{rows[0]} + multiset(rows[1..]);
      if Matches(rows[0], f) then [rows[0]] + rest else rest
  }

  /** `f1` asks for a subset of what `f2` asks for. */
  predicate SubFilter(f1: Filter, f2: Filter)
  {
    forall k :: k in f1 ==> k in f2 && f2[k] == f1[k]
  }

  /** A filter that asks for more keeps fewer rows: every row it keeps is kept
      by the weaker filter, and there are no more of them. */
  lemma {:induction false} StrongerFilterKeepsFewer(rows: seq<Row>, f1: Filter, f2: Filter)
    requires SubFilter(f1, f2)
    ensures forall x :: x in FilterRows(rows, f2) ==> x in FilterRows(rows, f1)
    ensures |FilterRows(rows, f2)| <= |FilterRows(rows, f1)|
  {
    if |rows| > 0 {
      StrongerFilterKeepsFewer(rows[1..], f1, f2);
      assert Matches(rows[0], f2) ==> Matches(rows[0], f1);
    }
  }

  /** Keyword arguments are pairwise distinct. */
  predicate DistinctKeys<V>(pairs: seq<(Column, V)>)
  {
    forall i, j :: 0 <= i < j < |pairs| ==> pairs[i].0 != pairs[j].0
  }

  /** The keyword names of an argument list. */
  function KeysOf<V>(pairs: seq<(Column, V)>): set<Column>
  {
    set i | 0 <= i < |pairs| :: pairs[i].0
  }

  /** `NotNoneDict(**kwargs)`: the keyword arguments whose value is not `None`. */
  function NotNoneDict(pairs: seq<(Column, Option<Value>)>): (d: Filter)
    requires DistinctKeys(pairs)
    ensures d.Keys <= KeysOf(pairs)
    ensures forall i :: 0 <= i < |pairs| ==> (pairs[i].0 in d <==> pairs[i].1.Some?)
    ensures forall i :: 0 <= i < |pairs| && pairs[i].1.Some? ==> d[pairs[i].0] == pairs[i].1.value
  {
    if |pairs| == 0 then map[]
    else
      var rest := NotNoneDict(pairs[1..]);
      assert forall i :: 1 <= i < |pairs| ==> pairs[i] == pairs[1..][i - 1];
      assert KeysOf(pairs) == {pairs[0].0} + KeysOf(pairs[1..]);
      if pairs[0].1.Some? then rest[pairs[0].0 := pairs[0].1.value] else rest
  }

  /** Python's `dict.copy()` followed by `update`: the second map wins on a
      shared key. */
  function Update(base: Filter, extra: Filter): (m: Filter)
    ensures m.Keys == base.Keys + extra.Keys
    ensures forall k :: k in extra ==> m[k] == extra[k]
    ensures forall k :: k in base && k !in extra ==> m[k] == base[k]
  {
    base + extra
  }

  /** Two filters with the same columns and the same values are equal. */
  lemma MapExt(a: Filter, b: Filter)
    requires a.Keys == b.Keys
    requires forall k :: k in a ==> a[k] == b[k]
    ensures a == b
  {
  }

  /** The map restricted to the given keys. */
  function Restrict(m: Filter, keys: set<Column>): (r: Filter)
    ensures r.Keys == m.Keys * keys
    ensures forall k :: k in r ==> r[k] == m[k]
  {
    map k | k in m && k in keys :: m[k]
  }

  /** Merging two filters over disjoint columns asks for both: a row matches
      the merge exactly when it matches each part, and each part is recovered
      by restricting the merge to its own columns. */
  lemma MergeDisjoint(row: Row, a: Filter, b: Filter)
    requires a.Keys !! b.Keys
    ensures Matches(row, Update(a, b)) <==> Matches(row, a) && Matches(row, b)
    ensures Restrict(Update(a, b), a.Keys) == a
    ensures Restrict(Update(a, b), b.Keys) == b
  {
    var m := Update(a, b);
    if Matches(row, a) && Matches(row, b) {
      forall k | k in m
        ensures k in row && row[k] == m[k]
      {
        if k in b { assert m[k] == b[k]; } else { assert m[k] == a[k]; }
      }
    }
  }
}

=== FILE: parser_output.dfy ===
/** The structured result of the external address parser (PassyunkParser),
    limited to the components the views read. The parser itself is not part
    of this model: the views receive it as a function `string -> Parsed`. */
module ParserOutput {
  import opened Base

  /** `components.street` / `components.street_2`. */
  datatype Street = Street(
    full: Option<string>,
    name: Option<string>,
    predir: Option<string>,
    postdir: Option<string>,
    suffix: Option<string>,
    streetCode: Option<string>)

  /** `components.address`: `low_num` and `high_num_full` are numbers,
      `full` is the raw number token as written. */
  datatype AddressNumber = AddressNumber(
    full: Option<string>,
    lowNum: Option<int>,
    highNumFull: Option<int>,
    addrSuffix: Option<string>,
    fractional: Option<string>)

  /** `components.address_unit`. */
  datatype AddressUnit = AddressUnit(unitType: Option<string>, unitNum: Option<string>)

  datatype Components = Components(
    street: Street,
    street2: Street,
    address: AddressNumber,
    addressUnit: AddressUnit,
    outputAddress: string)

  /** `parsed['type']` and `parsed['components']`. */
  datatype Parsed = Parsed(searchType: string, components: Components)
}

=== FILE: pytext.dfy ===
/** The Python string built-ins the views rely on: `str.strip`, `str.split`,
    `str.upper`, `int(str)` and `str(int)`. */
module PyText {
  import opened Base

  /** Python's `str.isspace()` for one code point: the characters that
      `str.strip()` and `str.split()` treat as white space. */
  predicate IsSpace(c: char)
  {
    var n := c as int;
    || (9 <= n <= 13) || (28 <= n <= 32) || n == 0x85 || n == 0xA0
    || n == 0x1680 || (0x2000 <= n <= 0x200A) || n == 0x2028 || n == 0x2029
    || n == 0x202F || n == 0x205F || n == 0x3000
  }

  /** The white space `int()` skips around a numeral: the ASCII characters
      tab to carriage return and the space, and every non-ASCII character
      that `str.isspace()` accepts. The ASCII separators U+001C to U+001F
      count as white space for `str.isspace()` but not for `int()`. */
  predicate IsIntSpace(c: char)
  {
    var n := c as int;
    (9 <= n <= 13) || n == 32 || (n >= 128 && IsSpace(c))
  }

  predicate IsSlash(c: char) { c == '/' }

  predicate NoSpace(s: string)
  {
    forall k :: 0 <= k < |s| ==> !IsSpace(s[k])
  }

  // ---------------------------------------------------------------------
  // str.strip
  // ---------------------------------------------------------------------

  /** Number of leading characters that `drop` removes. */
  function LeadCount(s: string, drop: char -> bool): (n: nat)
    ensures n <= |s|
    ensures forall k :: 0 <= k < n ==> drop(s[k])
    ensures n < |s| ==> !drop(s[n])
  {
    if |s| == 0 || !drop(s[0]) then 0 else 1 + LeadCount(s[1..], drop)
  }

  /** Number of trailing characters that `drop` removes. */
  function TrailCount(s: string, drop: char -> bool): (n: nat)
    ensures n <= |s|
    ensures forall k :: |s| - n <= k < |s| ==> drop(s[k])
    ensures n < |s| ==> !drop(s[|s| - 1 - n])
  {
    if |s| == 0 || !drop(s[|s| - 1]) then 0 else 1 + TrailCount(s[..|s| - 1], drop)
  }

  /** `r` is the slice of `s` starting at `a`, and everything around it is dropped. */
  predicate StrippedFrom(s: string, r: string, a: nat, drop: char -> bool)
  {
    && a + |r| <= |s|
    && r == s[a..a + |r|]
    && (forall k :: 0 <= k < a ==> drop(s[k]))
    && (forall k :: a + |r| <= k < |s| ==> drop(s[k]))
  }

  /** Python's `s.strip(chars)` (with `drop` the membership test for
      `chars`; `str.strip()` with no argument is `Strip(s, IsSpace)`). */
  function Strip(s: string, drop: char -> bool): (r: string)
    ensures StrippedFrom(s, r, LeadCount(s, drop), drop)
    ensures |r| > 0 ==> !drop(r[0]) && !drop(r[|r| - 1])
    ensures r == "" <==> forall k :: 0 <= k < |s| ==> drop(s[k])
  {
    var a := LeadCount(s, drop);
    var t := s[a..];
    var r := t[..|t| - TrailCount(t, drop)];
    assert r == s[a..a + |r|];
    r
  }

  /** Stripping a string whose ends are kept changes nothing. */
  lemma StripKeepsStripped(s: string, drop: char -> bool)
    requires |s| > 0 && !drop(s[0]) && !drop(s[|s| - 1])
    ensures Strip(s, drop) == s
  {
    assert LeadCount(s, drop) == 0;
  }

  /** A character absent from `s` is absent from its stripped form. */
  lemma StripNoNewChar(s: string, drop: char -> bool, c: char)
    requires c !in s
    ensures c !in Strip(s, drop)
  {
  }

  // ---------------------------------------------------------------------
  // str.split(sep) and its inverse sep.join
  // ---------------------------------------------------------------------

  /** Python's `sep.join(parts)` for a one-character separator. */
  function JoinWith(parts: seq<string>, sep: char): string
    requires |parts| > 0
  {
    if |parts| == 1 then parts[0] else parts[0] + [sep] + JoinWith(parts[1..], sep)
  }

  /** A join starts where its first part starts and ends where its last
      part ends. */
  lemma JoinWithEnds(parts: seq<string>, sep: char)
    requires |parts| > 0 && |parts[0]| > 0 && |parts[|parts| - 1]| > 0
    ensures var s := JoinWith(parts, sep);
      |s| > 0 && s[0] == parts[0][0] && s[|s| - 1] == parts[|parts| - 1][|parts[|parts| - 1]| - 1]
  {
    JoinWithEndsTail(parts, sep);
  }

  /** A join ends where its last part ends, whatever its first part is. */
  lemma {:induction false} JoinWithEndsTail(parts: seq<string>, sep: char)
    requires |parts| > 0 && |parts[|parts| - 1]| > 0
    ensures var s := JoinWith(parts, sep);
      |s| > 0 && s[|s| - 1] == parts[|parts| - 1][|parts[|parts| - 1]| - 1]
    decreases |parts|
  {
    if |parts| > 1 {
      var rest := parts[1..];
      assert rest[|rest| - 1] == parts[|parts| - 1];
      JoinWithEndsTail(rest, sep);
    }
  }

  /** Python's `s.split(sep)` for a one-character separator: empty pieces
      are kept, so there is always one more piece than separators. */
  function SplitOn(s: string, sep: char): (r: seq<string>)
    ensures |r| > 0
    ensures forall i :: 0 <= i < |r| ==> sep !in r[i]
    ensures JoinWith(r, sep) == s
    decreases |s|
  {
    if |s| == 0 then [""]
    else
      var rest := SplitOn(s[1..], sep);
      if s[0] == sep then
        assert [sep] + s[1..] == s;
        [""] + rest
      else
        var r := [[s[0]] + rest[0]] + rest[1..];
        assert r[1..] == rest[1..];
        assert [s[0]] + s[1..] == s;
        assert |rest| > 1 ==> JoinWith(rest, sep) == rest[0] + [sep] + JoinWith(rest[1..], sep);
        r
  }

  /** Splitting at the first separator of `a + [sep] + b` peels off `a`. */
  lemma {:induction false} SplitOnPeel(a: string, sep: char, b: string)
    requires sep !in a
    ensures SplitOn(a + [sep] + b, sep) == [a] + SplitOn(b, sep)
    decreases |a|
  {
    if |a| == 0 {
      assert a + [sep] + b == [sep] + b;
      assert ([sep] + b)[1..] == b;
    } else {
      var s := a + [sep] + b;
      assert s[1..] == a[1..] + [sep] + b;
      SplitOnPeel(a[1..], sep, b);
      assert [a[0]] + a[1..] == a;
    }
  }

  /** A piece without the separator splits to itself. */
  lemma {:induction false} SplitOnNoSep(a: string, sep: char)
    requires sep !in a
    ensures SplitOn(a, sep) == [a]
    decreases |a|
  {
    if |a| > 0 {
      SplitOnNoSep(a[1..], sep);
      assert [a[0]] + a[1..] == a;
    }
  }

  /** `s.split(sep)` inverts `sep.join(parts)` when no part holds `sep`. */
  lemma {:induction false} SplitJoinRoundTrip(parts: seq<string>, sep: char)
    requires |parts| > 0
    requires forall i :: 0 <= i < |parts| ==> sep !in parts[i]
    ensures SplitOn(JoinWith(parts, sep), sep) == parts
    decreases |parts|
  {
    if |parts| == 1 {
      SplitOnNoSep(parts[0], sep);
    } else {
      SplitJoinRoundTrip(parts[1..], sep);
      SplitOnPeel(parts[0], sep, JoinWith(parts[1..], sep));
      assert [parts[0]] + parts[1..] == parts;
    }
  }

  // ---------------------------------------------------------------------
  // str.split() (no argument) and str.upper()
  // ---------------------------------------------------------------------

  /** All the strings in order, glued together. */
  function Concat(ws: seq<string>): string
  {
    if |ws| == 0 then "" else ws[0] + Concat(ws[1..])
  }

  /** The characters of `s` that are not white space, in order. */
  function RemoveSpace(s: string): string
  {
    if |s| == 0 then ""
    else if IsSpace(s[0]) then RemoveSpace(s[1..])
    else [s[0]] + RemoveSpace(s[1..])
  }

  /** Python's `s.split()`: the maximal runs of non-white-space characters. */
  function Words(s: string): (r: seq<string>)
    ensures forall i :: 0 <= i < |r| ==> |r[i]| > 0 && NoSpace(r[i])
    ensures |s| > 0 && !IsSpace(s[0]) ==> |r| > 0
    ensures |s| > 0 && NoSpace(s) ==> r == [s]
    decreases |s|
  {
    if |s| == 0 then []
    else
      var rest := Words(s[1..]);
      if IsSpace(s[0]) then rest
      else if |s| > 1 && !IsSpace(s[1]) then
        var r := [[s[0]] + rest[0]] + rest[1..];
        assert r[1..] == rest[1..];
        assert [s[0]] + s[1..] == s;
        r
      else
        var r := [[s[0]]] + rest;
        assert r[1..] == rest;
        assert NoSpace(s) ==> s == [s[0]];
        r
  }

  /** The words of `s.split()`, glued back together, are exactly the
      non-white-space characters of `s`, in order. */
  lemma {:induction false} WordsKeepCharacters(s: string)
    ensures Concat(Words(s)) == RemoveSpace(s)
    decreases |s|
  {
    if |s| > 0 {
      WordsKeepCharacters(s[1..]);
      var rest := Words(s[1..]);
      if !IsSpace(s[0]) && |s| > 1 && !IsSpace(s[1]) {
        var r := Words(s);
        assert r[1..] == rest[1..];
        assert Concat(rest) == rest[0] + Concat(rest[1..]);
      } else if !IsSpace(s[0]) {
        assert Words(s)[1..] == rest;
      }
    }
  }

  /** One step of `Words`: how the first character joins the words of the rest. */
  lemma WordsCons(x: char, t: string)
    ensures Words([x] + t) ==
      if IsSpace(x) then Words(t)
      else if |t| > 0 && !IsSpace(t[0]) then [[x] + Words(t)[0]] + Words(t)[1..]
      else [[x]] + Words(t)
  {
    assert ([x] + t)[1..] == t;
  }

  lemma HeadOfAppend<T>(x: seq<T>, y: seq<T>)
    requires |x| > 0
    ensures (x + y)[0] == x[0] && (x + y)[1..] == x[1..] + y
  {
  }

  lemma AppendAssoc<T>(x: seq<T>, y: seq<T>, z: seq<T>)
    ensures x + (y + z) == (x + y) + z
  {
  }

  /** Words do not run across white space: a white-space character splits
      the string into the words before it and the words after it. Together
      with `Words(w) == [w]` for a word `w`, this pins `split()` down. */
  lemma {:induction false} WordsSplitAtSpace(a: string, c: char, b: string)
    requires IsSpace(c)
    ensures Words(a + [c] + b) == Words(a) + Words(b)
    decreases |a|
  {
    if |a| == 0 {
      assert a + [c] + b == [c] + b;
      WordsCons(c, b);
    } else {
      var t := a[1..] + [c] + b;
      assert a + [c] + b == [a[0]] + t;
      assert a == [a[0]] + a[1..];
      WordsSplitAtSpace(a[1..], c, b);
      WordsCons(a[0], t);
      WordsCons(a[0], a[1..]);
      var restA, wb := Words(a[1..]), Words(b);
      if IsSpace(a[0]) {
      } else if |a| > 1 && !IsSpace(a[1]) {
        assert t[0] == a[1];
        HeadOfAppend(restA, wb);
        var w := [[a[0]] + restA[0]];
        assert Words([a[0]] + t) == w + (restA[1..] + wb);
        AppendAssoc(w, restA[1..], wb);
      } else {
        assert IsSpace(t[0]);
        AppendAssoc([[a[0]]], restA, wb);
      }
    }
  }

  predicate IsLowerAscii(c: char) { 'a' <= c <= 'z' }

  function UpperChar(c: char): char
  {
    if IsLowerAscii(c) then (c as int - 32) as char else c
  }

  /** Python's `s.upper()`, restricted to the ASCII letters. */
  function Upper(s: string): (r: string)
    ensures |r| == |s|
    ensures forall k :: 0 <= k < |r| ==> !IsLowerAscii(r[k])
    ensures forall k :: 0 <= k < |r| ==> IsSpace(r[k]) == IsSpace(s[k])
    ensures forall k :: 0 <= k < |s| && !IsLowerAscii(s[k]) ==> r[k] == s[k]
    ensures forall k :: 0 <= k < |s| && IsLowerAscii(s[k]) ==>
      'A' <= r[k] <= 'Z' && r[k] as int - 'A' as int == s[k] as int - 'a' as int
  {
    seq(|s|, k requires 0 <= k < |s| => UpperChar(s[k]))
  }

  /** Each string of `ws` upper-cased. */
  function UpperAll(ws: seq<string>): (r: seq<string>)
    ensures |r| == |ws|
  {
    seq(|ws|, i requires 0 <= i < |ws| => Upper(ws[i]))
  }

  lemma UpperCons(c: char, w: string)
    ensures Upper([c] + w) == [UpperChar(c)] + Upper(w)
  {
  }

  lemma UpperAllCons(w: string, ws: seq<string>)
    ensures UpperAll([w] + ws) == [Upper(w)] + UpperAll(ws)
  {
  }

  /** Upper-casing does not move word boundaries: the words of `s.upper()`
      are the upper-cased words of `s`. */
  lemma {:induction false} WordsOfUpper(s: string)
    ensures Words(Upper(s)) == UpperAll(Words(s))
    decreases |s|
  {
    if |s| > 0 {
      WordsOfUpper(s[1..]);
      WordsOfUpperStep(s[0], s[1..]);
      assert s == [s[0]] + s[1..];
    }
  }

  /** One character in front keeps `WordsOfUpper` true. */
  lemma WordsOfUpperStep(c: char, t: string)
    requires Words(Upper(t)) == UpperAll(Words(t))
    ensures Words(Upper([c] + t)) == UpperAll(Words([c] + t))
  {
    var uc, ut := UpperChar(c), Upper(t);
    UpperCons(c, t);
    WordsCons(uc, ut);
    WordsCons(c, t);
    assert IsSpace(uc) == IsSpace(c);
    if IsSpace(c) {
    } else if |t| > 0 && !IsSpace(t[0]) {
      assert |Words(t)| > 0;
      UpperAllJoin(c, Words(t));
    } else {
      assert |ut| > 0 ==> IsSpace(ut[0]);
      assert Upper([c]) == [uc];
      UpperAllCons([c], Words(t));
    }
  }

  /** Upper-casing a character glued to the first word of a list is gluing
      the upper-cased character to the first upper-cased word. */
  lemma UpperAllJoin(c: char, ws: seq<string>)
    requires |ws| > 0
    ensures [[UpperChar(c)] + UpperAll(ws)[0]] + UpperAll(ws)[1..] == UpperAll([[c] + ws[0]] + ws[1..])
  {
    UpperCons(c, ws[0]);
    assert UpperAll(ws)[1..] == UpperAll(ws[1..]);
    UpperAllCons([c] + ws[0], ws[1..]);
  }

  // ---------------------------------------------------------------------
  // int(str) and str(int)
  // ---------------------------------------------------------------------

  predicate IsDigit(c: char) { '0' <= c <= '9' }

  predicate AllDigits(s: string)
  {
    forall k :: 0 <= k < |s| ==> IsDigit(s[k])
  }

  /** The natural number written by a string of decimal digits. */
  function DigitsValue(s: string): nat
    requires AllDigits(s)
  {
    if |s| == 0 then 0 else DigitsValue(s[..|s| - 1]) * 10 + (s[|s| - 1] as int - '0' as int)
  }

  /** The digit part that Python's `int()` accepts: digits, with single
      underscores allowed between two digits. */
  predicate IsDigitGroup(s: string)
  {
    && |s| > 0
    && IsDigit(s[0])
    && IsDigit(s[|s| - 1])
    && (forall k :: 0 <= k < |s| ==> IsDigit(s[k]) || s[k] == '_')
    && NoDoubleUnderscore(s)
  }

  predicate NoDoubleUnderscore(s: string)
  {
    |s| < 2 || (!(s[0] == '_' && s[1] == '_') && NoDoubleUnderscore(s[1..]))
  }

  lemma {:induction false} DigitsNoDoubleUnderscore(s: string)
    ensures AllDigits(s) ==> NoDoubleUnderscore(s)
  {
    if AllDigits(s) && |s| >= 2 {
      DigitsNoDoubleUnderscore(s[1..]);
    }
  }

  function WithoutUnderscores(s: string): (r: string)
    ensures (forall k :: 0 <= k < |s| ==> IsDigit(s[k]) || s[k] == '_') ==> AllDigits(r)
    ensures AllDigits(s) ==> r == s
  {
    if |s| == 0 then ""
    else if s[0] == '_' then WithoutUnderscores(s[1..])
    else [s[0]] + WithoutUnderscores(s[1..])
  }

  /** A string of digits, with or without a leading minus, is unchanged by the stripping `int()` does. */
  lemma StripNumeral(s: string)
    ensures |s| > 0 && AllDigits(s) ==> Strip(s, IsIntSpace) == s
    ensures |s| > 1 && s[0] == '-' && AllDigits(s[1..]) ==> Strip(s, IsIntSpace) == s
  {
    if |s| > 0 && AllDigits(s) {
      StripKeepsStripped(s, IsIntSpace);
    } else if |s| > 1 && s[0] == '-' && AllDigits(s[1..]) {
      assert s[|s| - 1] == s[1..][|s| - 2];
      StripKeepsStripped(s, IsIntSpace);
    }
  }

  /** Stripping brings in no digit. */
  lemma StripNoDigit(s: string)
    ensures (forall k :: 0 <= k < |s| ==> !IsDigit(s[k])) ==>
      forall k :: 0 <= k < |Strip(s, IsIntSpace)| ==> !IsDigit(Strip(s, IsIntSpace)[k])
  {
    var t := Strip(s, IsIntSpace);
    var a := LeadCount(s, IsIntSpace);
    assert forall k :: 0 <= k < |t| ==> t[k] == s[a + k];
  }

  /** The unsigned part of `int()`: a digit group, or a failure. */
  function ParseDigits(g: string): (r: Option<nat>)
    ensures |g| > 0 && AllDigits(g) ==> r == Some(DigitsValue(g))
    ensures (forall k :: 0 <= k < |g| ==> !IsDigit(g[k])) ==> r.None?
  {
    DigitsNoDoubleUnderscore(g);
    if IsDigitGroup(g) then Some(DigitsValue(WithoutUnderscores(g))) else None
  }

  /** `int()` on a string already stripped of white space: an optional
      sign, then a digit group. */
  function ParseSigned(t: string): Option<int>
  {
    if |t| > 0 && (t[0] == '+' || t[0] == '-') then
      match ParseDigits(t[1..])
      case Some(m) => Some(if t[0] == '-' then -(m as int) else m as int)
      case None => None
    else ParseDigits(t)
  }

  /** `int()` of a digit string is its value. */
  lemma ParseStrippedDigits(s: string)
    requires |s| > 0 && AllDigits(s)
    ensures ParseSigned(Strip(s, IsIntSpace)) == Some(DigitsValue(s))
  {
    StripNumeral(s);
    assert IsDigit(s[0]);
    assert ParseDigits(s) == Some(DigitsValue(s));
  }

  /** `int()` of a minus sign and a digit string is the negated value. */
  lemma ParseStrippedNegative(s: string)
    requires |s| > 1 && s[0] == '-' && AllDigits(s[1..])
    ensures ParseSigned(Strip(s, IsIntSpace)) == Some(-(DigitsValue(s[1..]) as int))
  {
    StripNumeral(s);
    var g := s[1..];
    assert ParseDigits(g) == Some(DigitsValue(g));
    assert ParseSigned(s) == Some(-(DigitsValue(g) as int));
  }

  /** `int()` of a string without a digit fails. */
  lemma ParseStrippedNoDigit(s: string)
    requires forall k :: 0 <= k < |s| ==> !IsDigit(s[k])
    ensures ParseSigned(Strip(s, IsIntSpace)).None?
  {
    StripNoDigit(s);
    var t := Strip(s, IsIntSpace);
    if |t| > 0 && (t[0] == '+' || t[0] == '-') {
      var g := t[1..];
      assert forall k :: 0 <= k < |g| ==> !IsDigit(g[k]) by {
        forall k | 0 <= k < |g|
          ensures !IsDigit(g[k])
        {
          assert g[k] == t[k + 1];
        }
      }
    }
  }

  /** The ASCII file, group, record and unit separators, U+001C to U+001F. */
  predicate IsSeparatorControl(c: char)
  {
    28 <= c as int <= 31
  }

  /** A separator control at either end survives `int()`'s stripping and
      then is neither a sign nor a digit, so the parse fails. */
  lemma SeparatorControlEnds(s: string)
    ensures |s| > 0 && (IsSeparatorControl(s[0]) || IsSeparatorControl(s[|s| - 1])) ==>
      ParseSigned(Strip(s, IsIntSpace)).None?
  {
    if |s| > 0 && (IsSeparatorControl(s[0]) || IsSeparatorControl(s[|s| - 1])) {
      var t := Strip(s, IsIntSpace);
      assert |t| > 0 && (IsSeparatorControl(t[0]) || IsSeparatorControl(t[|t| - 1])) by {
        if IsSeparatorControl(s[0]) {
          assert LeadCount(s, IsIntSpace) == 0;
          assert !IsIntSpace(s[0]);
        } else {
          assert !IsIntSpace(s[|s| - 1]);
        }
      }
      if |t| > 0 && (t[0] == '+' || t[0] == '-') {
        assert t[1..] == [] || t[1..][|t[1..]| - 1] == t[|t| - 1];
      }
    }
  }

  /** The three shapes of text whose parse is known, as implications. */
  lemma {:induction false} ParseStrippedCases(s: string)
    ensures |s| > 0 && AllDigits(s) ==> ParseSigned(Strip(s, IsIntSpace)) == Some(DigitsValue(s))
    ensures |s| > 1 && s[0] == '-' && AllDigits(s[1..]) ==>
      ParseSigned(Strip(s, IsIntSpace)) == Some(-(DigitsValue(s[1..]) as int))
    ensures (forall k :: 0 <= k < |s| ==> !IsDigit(s[k])) ==> ParseSigned(Strip(s, IsIntSpace)).None?
  {
    if |s| > 0 && AllDigits(s) {
      ParseStrippedDigits(s);
    }
    if |s| > 1 && s[0] == '-' && AllDigits(s[1..]) {
      ParseStrippedNegative(s);
    }
    if forall k :: 0 <= k < |s| ==> !IsDigit(s[k]) {
      ParseStrippedNoDigit(s);
    }
  }

  /** Python's `int(s)` on a string: `None` where Python raises ValueError. */
  function ParseInt(s: string): (r: Option<int>)
    ensures |s| > 0 && AllDigits(s) ==> r == Some(DigitsValue(s))
    ensures |s| > 1 && s[0] == '-' && AllDigits(s[1..]) ==> r == Some(-(DigitsValue(s[1..]) as int))
    ensures (forall k :: 0 <= k < |s| ==> !IsDigit(s[k])) ==> r.None?
    ensures |s| > 0 && (IsSeparatorControl(s[0]) || IsSeparatorControl(s[|s| - 1])) ==> r.None?
  {
    ParseStrippedCases(s);
    SeparatorControlEnds(s);
    ParseSigned(Strip(s, IsIntSpace))
  }

  function DigitChar(d: nat): char
    requires d < 10
  {
    ('0' as int + d) as char
  }

  /** The decimal digits of a natural number, without leading zeros. */
  function NatDigits(n: nat): (r: string)
    ensures |r| > 0 && AllDigits(r)
    ensures DigitsValue(r) == n
    ensures r[0] == '0' ==> n == 0
  {
    if n < 10 then [DigitChar(n)]
    else
      var r := NatDigits(n / 10) + [DigitChar(n % 10)];
      assert r[..|r| - 1] == NatDigits(n / 10);
      r
  }

  /** Python's `str(n)` for an int: a minus sign exactly for a negative
      number, then the digits of its magnitude without leading zeros. */
  function Decimal(n: int): (r: string)
    ensures |r| > 0 && !IsSpace(r[0]) && !IsSpace(r[|r| - 1])
    ensures r[0] == '-' <==> n < 0
    ensures var d := if n < 0 then r[1..] else r;
      && |d| > 0 && AllDigits(d)
      && DigitsValue(d) == (if n < 0 then -n else n)
      && (d[0] == '0' ==> n == 0)
  {
    if n < 0 then "-" + NatDigits(-n) else NatDigits(n)
  }

  /** `int(str(n)) == n`. */
  lemma DecimalRoundTrip(n: int)
    ensures ParseInt(Decimal(n)) == Some(n)
  {
    var s := Decimal(n);
    StripNumeral(s);
    if n < 0 {
      assert s[1..] == NatDigits(-n);
    }
  }
}

=== FILE: views.dfy ===
/** The routes `/addresses`, `/block`, `/owner` and `/search` with the HTTP
    plumbing removed. Each view turns the request into a `Plan`: either an
    immediate response, or one index query together with the response to give
    when that query finds nothing. `Conclude` then runs the steps every route
    shares: count, report not-found on zero, and only then check the page. */
module Views {
  import opened Base
  import opened PyText
  import opened Filters
  import opened ParserOutput
  import opened Compile

  // ---------------------------------------------------------------------
  // Request arguments
  // ---------------------------------------------------------------------

  /** The query-string arguments of a request, as (name, value) pairs in
      the order they were given. */
  type Args = seq<(string, string)>

  function AllNames(args: Args): seq<string>
  {
    seq(|args|, i requires 0 <= i < |args| => args[i].0)
  }

  /** Whether an argument with this name was given. */
  predicate HasArg(args: Args, name: string): (b: bool)
    ensures b <==> exists i :: 0 <= i < |args| && args[i].0 == name
    ensures !b ==> forall i :: 0 <= i < |args| ==> args[i].0 != name
  {
    var names := AllNames(args);
    assert forall i :: 0 <= i < |args| ==> names[i] == args[i].0;
    name in names
  }

  /** `for arg in request.args`: each argument name once, in the order of
      its first appearance. */
  function ArgNames(args: Args): (names: seq<string>)
    ensures forall i, j :: 0 <= i < j < |names| ==> names[i] != names[j]
    ensures forall n :: n in names <==> HasArg(args, n)
    ensures |names| <= |args|
  {
    if |args| == 0 then []
    else
      var init := args[..|args| - 1];
      var n := args[|args| - 1].0;
      var rest := ArgNames(init);
      assert AllNames(args) == AllNames(init) + [n];
      if n in rest then rest else rest + [n]
  }

  function SumLengths(names: seq<string>): nat
  {
    if |names| == 0 then 0 else |names[0]| + SumLengths(names[1..])
  }

  /** `arg_len`: the summed lengths of the argument names. */
  function ArgLength(args: Args): nat
  {
    SumLengths(ArgNames(args))
  }

  /** An argument given again adds nothing to `arg_len`. */
  lemma RepeatedArgCountsOnce(args: Args, name: string, value: string)
    requires HasArg(args, name)
    ensures ArgLength(args + [(name, value)]) == ArgLength(args)
  {
    assert (args + [(name, value)])[..|args|] == args;
  }

  /** `request.args.get(name, default)`: the first value given for `name`. */
  function ArgValue(args: Args, name: string, default: string): (v: string)
    ensures !HasArg(args, name) ==> v == default
    ensures HasArg(args, name) ==>
      exists i :: 0 <= i < |args| && args[i] == (name, v) && forall j :: 0 <= j < i ==> args[j].0 != name
  {
    if |args| == 0 then default
    else if args[0].0 == name then
      assert AllNames(args)[0] == name;
      assert args[0] == (name, args[0].1);
      args[0].1
    else
      assert AllNames(args) == [args[0].0] + AllNames(args[1..]);
      var v := ArgValue(args[1..], name, default);
      assert HasArg(args, name) ==>
        exists i :: 1 <= i < |args| && args[i] == (name, v) && forall j :: 0 <= j < i ==> args[j].0 != name
      by {
        if HasArg(args, name) {
          var i' :| 0 <= i' < |args| - 1 && args[1..][i'] == (name, v)
                    && forall j :: 0 <= j < i' ==> args[1..][j].0 != name;
          assert args[i' + 1] == (name, v);
          assert forall j :: 1 <= j < i' + 1 ==> args[j].0 == args[1..][j - 1].0;
        }
      }
      v
  }

  const CharacterLimit: nat := 60

  /** The query and the argument names together are shorter than the limit. */
  predicate WithinLimit(query: string, args: Args)
  {
    |query| + ArgLength(args) < CharacterLimit
  }

  // ---------------------------------------------------------------------
  // Responses, index queries and plans
  // ---------------------------------------------------------------------

  /** A `json_error(code, message, ...)` body, a page of results, or the
      body of Flask's handler for an uncaught exception. */
  datatype Body = ErrorBody(code: nat, message: string) | Listing(total: nat, page: nat) | ServerError

  /** The body together with the HTTP status the route answers with, which
      need not equal the code inside the body. */
  datatype Response = Response(status: nat, body: Body)

  const AddressesNotFound := "Could not find addresses matching query."
  const BlockNotFound := "Could not find any address on a block matching query."
  const OwnerNotFound := "Could not find any addresses with owner matching query."
  const IntersectionNotFound := "Could not find any intersection matching query."
  const NoBlockNumber := "No valid block number provided."
  const TooLong := "Query exceeds character limit."

  /** A body reporting that nothing was found. */
  predicate IsNotFound(r: Response)
  {
    r.body.ErrorBody? && r.body.code == 404
  }

  /** One `AddressSummary.query.filter_by(**filters)` chain: the filter and
      the arguments of the query-class refinements applied after it
      (`filter_by_unit_type`, `include_child_units`, `exclude_non_opa`),
      whose meaning belongs to the index. */
  datatype AddressLookup = AddressLookup(
    filter: Filter,
    unitType: Option<string>,
    includeUnits: bool,
    isRange: bool,
    isUnit: bool,
    opaOnly: bool)

  /** One query against the index, counted by `QueryPaginator`. */
  datatype DbQuery =
    | AddressSearch(lookups: seq<AddressLookup>)    // union of the lookups, ordered by address
    | BlockSearch(window: BlockWindow, opaOnly: bool)
    | OwnerSearch(tokens: seq<string>, opaOnly: bool)
    | IntersectionSearch(filter: Filter)  // one canonical row per street pair
    | AccountSearch(accountNum: string)
    | MapRegSearch(dorParcelId: string)

  /** What a route does before the shared tail: answer at once, or run a
      query with its not-found answer. `listingFails` marks a found page
      that cannot be rendered: the intersection listing joins the two
      streets' full names with `&`, which raises when either name is
      missing, and Flask's handler answers 500. */
  datatype Plan =
    | Respond(response: Response)
    | Lookup(query: DbQuery, notFound: Response, listingFails: bool)

  /** What `validate_page_num` says about the page argument; its rules are
      the paginator's and are taken as a parameter. */
  datatype PageVerdict = ValidPage(page: nat) | InvalidPage(message: string)

  /** The page argument, `request.args.get('page', '1')`. */
  function PageArg(args: Args): string
  {
    ArgValue(args, "page", "1")
  }

  /** The common tail of every route: count the results, answer not-found on
      zero, otherwise validate the page and answer with that page. */
  function Conclude(plan: Plan, count: DbQuery -> nat, args: Args, validatePage: (nat, string) -> PageVerdict): (r: Response)
    ensures plan.Respond? ==> r == plan.response
    ensures plan.Lookup? && count(plan.query) == 0 ==> r == plan.notFound
    ensures plan.Lookup? && count(plan.query) > 0 ==>
      var verdict := validatePage(count(plan.query), PageArg(args));
      && (r.status == 400 <==> verdict.InvalidPage?)
      && (verdict.ValidPage? && plan.listingFails ==> r == Response(500, ServerError))
      && (verdict.ValidPage? && !plan.listingFails ==> r == Response(200, Listing(count(plan.query), verdict.page)))
  {
    match plan
    case Respond(r) => r
    case Lookup(q, notFound, listingFails) =>
      var total := count(q);
      if total == 0 then notFound
      else match validatePage(total, PageArg(args))
        case InvalidPage(message) => Response(400, ErrorBody(400, message))
        case ValidPage(page) =>
          if listingFails then Response(500, ServerError) else Response(200, Listing(total, page))
  }

  /** An empty result is answered before the page is looked at: the answer
      is the plan's not-found response whatever the page argument and
      whatever the paginator would say about it. */
  lemma EmptyResultIgnoresPage(plan: Plan, count: DbQuery -> nat, args1: Args, v1: (nat, string) -> PageVerdict,
                               args2: Args, v2: (nat, string) -> PageVerdict)
    requires plan.Lookup? && count(plan.query) == 0
    ensures Conclude(plan, count, args1, v1) == plan.notFound
    ensures Conclude(plan, count, args1, v1) == Conclude(plan, count, args2, v2)
  {
  }

  /** A page error is only ever reported for a non-empty result. */
  lemma PageErrorOnlyWithResults(plan: Plan, count: DbQuery -> nat, args: Args, v: (nat, string) -> PageVerdict)
    requires plan.Lookup? && plan.notFound.status != 400
    requires Conclude(plan, count, args, v).status == 400
    ensures count(plan.query) > 0
    ensures v(count(plan.query), PageArg(args)).InvalidPage?
  {
  }

  /** A plan that answers at once never consults the index or the paginator. */
  lemma ImmediateIgnoresIndex(plan: Plan, count1: DbQuery -> nat, count2: DbQuery -> nat, args: Args,
                              v1: (nat, string) -> PageVerdict, v2: (nat, string) -> PageVerdict)
    requires plan.Respond?
    ensures Conclude(plan, count1, args, v1) == Conclude(plan, count2, args, v2) == plan.response
  {
  }

  // ---------------------------------------------------------------------
  // The views
  // ---------------------------------------------------------------------

  /** The index query for one parsed address, shared by `/addresses` and
      the `address` branch of `/search`. */
  function AddressLookupOf(c: Components, args: Args): (l: AddressLookup)
    ensures l.filter == AddressFilter(c).Merged()
    ensures l.unitType == c.addressUnit.unitType
    ensures l.includeUnits <==> HasArg(args, "include_units")
    ensures l.isRange <==> c.address.highNumFull.Some?
    ensures l.isUnit <==> c.addressUnit.unitType.Some?
    ensures l.opaOnly <==> HasArg(args, "opa_only")
  {
    AddressLookup(
      AddressFilter(c).Merged(),
      c.addressUnit.unitType,
      HasArg(args, "include_units"),
      c.address.highNumFull.Some?,
      c.addressUnit.unitType.Some?,
      HasArg(args, "opa_only"))
  }

  /** One address lookup per sub-query, in order. */
  function LookupsOf(subs: seq<string>, args: Args, parse: string -> Parsed): (ls: seq<AddressLookup>)
    ensures |ls| == |subs|
    ensures forall i :: 0 <= i < |subs| ==> ls[i] == AddressLookupOf(parse(subs[i]).components, args)
    ensures forall i :: 0 <= i < |subs| ==> ls[i].filter == AddressFilter(parse(subs[i]).components).Merged()
  {
    seq(|subs|, i requires 0 <= i < |subs| => AddressLookupOf(parse(subs[i]).components, args))
  }

  /** `/addresses/<query>`: one lookup per `;`-separated sub-query, unioned.
      With no non-empty sub-query the union is never started and the route
      fails on `None.order_by_address()`. */
  function AddressesView(path: string, args: Args, parse: string -> Parsed): (p: Plan)
    ensures var subs := SubQueries(Strip(path, IsSlash));
      && (p.Respond? <==> |subs| == 0)
      && (p.Respond? ==> p.response == Response(500, ServerError))
      && (p.Lookup? ==>
          && p.query.AddressSearch?
          && |p.query.lookups| == |subs|
          && (forall i :: 0 <= i < |subs| ==>
                p.query.lookups[i].filter == AddressFilter(parse(subs[i]).components).Merged())
          && p.notFound == Response(404, ErrorBody(404, AddressesNotFound)) && !p.listingFails)
  {
    var query := Strip(path, IsSlash);
    var subs := SubQueries(query);
    if |subs| == 0 then Respond(Response(500, ServerError))
    else
      Lookup(AddressSearch(LookupsOf(subs, args, parse)), Response(404, ErrorBody(404, AddressesNotFound)), false)
  }

  /** The parser's normalised output for each sub-query, in order. */
  function OutputsOf(subs: seq<string>, parse: string -> Parsed): (r: seq<string>)
    ensures |r| == |subs|
    ensures forall i :: 0 <= i < |subs| ==> r[i] == parse(subs[i]).components.outputAddress
  {
    seq(|subs|, i requires 0 <= i < |subs| => parse(subs[i]).components.outputAddress)
  }

  /** The `normalized` list of `/addresses`: one parser output per sub-query. */
  function NormalizedAddresses(path: string, parse: string -> Parsed): (r: seq<string>)
    ensures var subs := SubQueries(Strip(path, IsSlash));
      && |r| == |subs|
      && forall i :: 0 <= i < |subs| ==> r[i] == parse(subs[i]).components.outputAddress
  {
    OutputsOf(SubQueries(Strip(path, IsSlash)), parse)
  }

  /** `/addresses` fails with the 500 handler's answer exactly when every
      `;`-separated piece of the query is blank. */
  lemma AddressesFailsIffBlank(path: string, args: Args, parse: string -> Parsed)
    ensures var p := AddressesView(path, args, parse);
      && (p.Respond? <==> AllBlank(SplitOn(Strip(path, IsSlash), ';')))
      && (p.Respond? ==> p.response == Response(500, ServerError))
  {
  }

  /** The `normalized` list and the lookups of `/addresses` pair up: entry
      `i` of each comes from the same sub-query. */
  lemma NormalizedPairsWithLookups(path: string, args: Args, parse: string -> Parsed)
    requires AddressesView(path, args, parse).Lookup?
    ensures var subs := SubQueries(Strip(path, IsSlash));
      var ls, ns := AddressesView(path, args, parse).query.lookups, NormalizedAddresses(path, parse);
      && |ns| == |ls| == |subs|
      && forall i :: 0 <= i < |ls| ==>
           var c := parse(subs[i]).components;
           ls[i] == AddressLookupOf(c, args) && ns[i] == c.outputAddress
  {
  }

  /** A batch written as trimmed, `;`-free queries joined by `;` is looked up
      query by query, in the order written, with one normalised output each. */
  lemma AddressesOfJoin(qs: seq<string>, args: Args, parse: string -> Parsed)
    requires |qs| > 0
    requires forall i :: 0 <= i < |qs| ==> IsTrimmed(qs[i]) && ';' !in qs[i]
    requires var first, last := qs[0], qs[|qs| - 1];
      |first| > 0 && |last| > 0 && !IsSlash(first[0]) && !IsSlash(last[|last| - 1])
    ensures var path := JoinWith(qs, ';');
      var p := AddressesView(path, args, parse);
      && p.Lookup? && |p.query.lookups| == |qs|
      && (forall i :: 0 <= i < |qs| ==> p.query.lookups[i] == AddressLookupOf(parse(qs[i]).components, args))
      && NormalizedAddresses(path, parse) == OutputsOf(qs, parse)
  {
    var path := JoinWith(qs, ';');
    JoinWithEnds(qs, ';');
    StripKeepsStripped(path, IsSlash);
    SubQueriesOfJoin(qs);
    assert SubQueries(Strip(path, IsSlash)) == qs;
  }

  /** `/block/<query>`: the 100-number block holding the query's number. */
  function BlockView(path: string, args: Args, parse: string -> Parsed): (p: Plan)
    ensures var c := parse(Strip(path, IsSlash)).components;
      && (p.Respond? <==> BlockNumber(c.address).None?)
      && (p.Respond? ==> p.response == Response(400, ErrorBody(400, NoBlockNumber)))
      && (p.Lookup? ==>
          var n := BlockNumber(c.address).value;
          && p.query.BlockSearch?
          && p.query.window.low % 100 == 0
          && p.query.window.low <= n < p.query.window.high == p.query.window.low + 100
          && p.query.window.street == StreetFilter(c)
          && (p.query.opaOnly <==> HasArg(args, "opa_only"))
          && p.notFound == Response(404, ErrorBody(404, BlockNotFound)) && !p.listingFails)
  {
    var c := parse(Strip(path, IsSlash)).components;
    match BlockFilter(c)
    case None => Respond(Response(400, ErrorBody(400, NoBlockNumber)))
    case Some(w) => Lookup(BlockSearch(w, HasArg(args, "opa_only")), Response(404, ErrorBody(404, BlockNotFound)), false)
  }

  /** A raw number token that starts with one of the ASCII separator
      controls U+001C to U+001F is not a number to `int()`, although
      `str.isspace()` calls those characters white space, so the block route
      answers 400. */
  lemma BlockSeparatorControlIsNoNumber(path: string, args: Args, parse: string -> Parsed)
    requires var a := parse(Strip(path, IsSlash)).components.address;
      a.lowNum.None? && a.full.Some? && |a.full.value| > 0 && IsSeparatorControl(a.full.value[0])
    ensures BlockView(path, args, parse) == Respond(Response(400, ErrorBody(400, NoBlockNumber)))
  {
  }

  /** The block route finds the rows on the query's street whose low number
      is on the query's block, and no others. */
  lemma BlockViewIsSameBlock(path: string, args: Args, parse: string -> Parsed, row: Row)
    requires BlockView(path, args, parse).Lookup?
    ensures var c := parse(Strip(path, IsSlash)).components;
      InWindow(row, BlockView(path, args, parse).query.window) <==>
        && Matches(row, StreetFilter(c))
        && AddressLow in row && row[AddressLow].Int?
        && BlockStart(row[AddressLow].i) == BlockStart(BlockNumber(c.address).value)
  {
    var c := parse(Strip(path, IsSlash)).components;
    assert BlockView(path, args, parse).query.window == BlockFilter(c).value;
    BlockWindowIsSameBlock(c, row);
  }

  /** `/owner/<query>`: the owner-name tokens, always looked up. */
  function OwnerView(path: string, args: Args): (p: Plan)
    ensures p.Lookup? && p.query.OwnerSearch?
    ensures p.query.tokens == UpperAll(Words(Strip(path, IsSlash)))
    ensures p.query.opaOnly <==> HasArg(args, "opa_only")
    ensures p.notFound == Response(404, ErrorBody(404, OwnerNotFound)) && !p.listingFails
  {
    Lookup(OwnerSearch(OwnerTokens(Strip(path, IsSlash)), HasArg(args, "opa_only")),
           Response(404, ErrorBody(404, OwnerNotFound)), false)
  }

  /** The search types the `/search` route tells apart. */
  datatype SearchKind = IntersectionKind | AddressKind | OpaAccountKind | MapRegKind | Unrecognised

  const KnownTypes: set<string> := {"intersection_addr", "address", "opa_account", "mapreg"}

  /** The `if`/`elif` chain on `parsed['type']` as a closed table. */
  function KindOf(searchType: string): (k: SearchKind)
    ensures k == Unrecognised <==> searchType !in KnownTypes
  {
    if searchType == "intersection_addr" then IntersectionKind
    else if searchType == "address" then AddressKind
    else if searchType == "opa_account" then OpaAccountKind
    else if searchType == "mapreg" then MapRegKind
    else Unrecognised
  }

  /** Either street of an intersection lacks its full name. */
  predicate NamesMissing(c: Components)
  {
    c.street.full.None? || c.street2.full.None?
  }

  /** The `/search` branch for a query that passed the length guard. */
  function SearchBranch(query: string, args: Args, parsed: Parsed): (p: Plan)
    ensures p.Lookup? ==> parsed.searchType in KnownTypes
    ensures p.Lookup? ==> IsNotFound(p.notFound) && (p.notFound.status == 200 <==> p.query.IntersectionSearch?)
    ensures p.Respond? ==> p.response.body.ServerError? || IsNotFound(p.response)
    ensures p.Respond? && p.response.body.ServerError? ==> parsed.searchType == "intersection_addr"
    ensures p.Lookup? && p.listingFails ==> p.query.IntersectionSearch?
    ensures parsed.searchType == "intersection_addr" ==>
      var f := IntersectionFilter(parsed.components.street, parsed.components.street2);
      && (p.Respond? <==> f.Raised?)
      && (p.Lookup? ==> p.query == IntersectionSearch(f.value) && (p.listingFails <==> NamesMissing(parsed.components)))
  {
    var c := parsed.components;
    match KindOf(parsed.searchType)
    case IntersectionKind =>
      (match IntersectionFilter(c.street, c.street2)
       case Raised => Respond(Response(500, ServerError))
       case Ok(f) => Lookup(IntersectionSearch(f), Response(200, ErrorBody(404, IntersectionNotFound)), NamesMissing(c)))
    case AddressKind =>
      Lookup(AddressSearch([AddressLookupOf(c, args)]), Response(404, ErrorBody(404, AddressesNotFound)), false)
    case OpaAccountKind =>
      Lookup(AccountSearch(query), Response(404, ErrorBody(404, AddressesNotFound)), false)
    case MapRegKind =>
      Lookup(MapRegSearch(query), Response(404, ErrorBody(404, AddressesNotFound)), false)
    case Unrecognised =>
      Respond(Response(404, ErrorBody(404, AddressesNotFound)))
  }

  /** `/search/<query>`: the length guard, then dispatch on the parser's type. */
  function SearchView(path: string, args: Args, parse: string -> Parsed): (p: Plan)
    ensures var query := Strip(path, IsSlash);
      p == Respond(Response(404, ErrorBody(400, TooLong))) <==> !WithinLimit(query, args)
    ensures var query := Strip(path, IsSlash);
      WithinLimit(query, args) && parse(query).searchType !in KnownTypes ==>
        p == Respond(Response(404, ErrorBody(404, AddressesNotFound)))
    ensures var query := Strip(path, IsSlash);
      p.Lookup? ==> WithinLimit(query, args) && parse(query).searchType in KnownTypes && IsNotFound(p.notFound)
  {
    var query := Strip(path, IsSlash);
    if |query| + ArgLength(args) < CharacterLimit then SearchBranch(query, args, parse(query))
    else Respond(Response(404, ErrorBody(400, TooLong)))
  }

  /** The whole `/search` route. */
  function Search(path: string, args: Args, parse: string -> Parsed, count: DbQuery -> nat,
                  validatePage: (nat, string) -> PageVerdict): (r: Response)
    ensures || r == Response(404, ErrorBody(400, TooLong))
            || r.body.ServerError?
            || IsNotFound(r)
            || (r.status == 400 && r.body.ErrorBody?)
            || (r.status == 200 && r.body.Listing?)
    ensures r.body.Listing? ==> WithinLimit(Strip(path, IsSlash), args)
  {
    Conclude(SearchView(path, args, parse), count, args, validatePage)
  }

  // ---------------------------------------------------------------------
  // Properties of the views
  // ---------------------------------------------------------------------

  /** The length guard: a request over the limit is answered with the
      character-limit error (body code 400, status 404) without parsing, and
      that answer is given to no other request. */
  lemma SearchLengthGuard(path: string, args: Args, parse: string -> Parsed, count: DbQuery -> nat,
                          validatePage: (nat, string) -> PageVerdict)
    ensures var query := Strip(path, IsSlash);
      (Search(path, args, parse, count, validatePage) == Response(404, ErrorBody(400, TooLong)))
      <==> !WithinLimit(query, args)
  {
    var query := Strip(path, IsSlash);
    if WithinLimit(query, args) {
      var p := SearchView(path, args, parse);
      assert p == SearchBranch(query, args, parse(query));
      var r := Conclude(p, count, args, validatePage);
      if p.Lookup? && count(p.query) > 0 {
        assert r.status != 404;
      } else {
        assert r.body.ServerError? || IsNotFound(r);
      }
    }
  }

  /** Over the limit, the parser's answer makes no difference. */
  lemma TooLongIsNotParsed(path: string, args: Args, parse1: string -> Parsed, parse2: string -> Parsed)
    requires !WithinLimit(Strip(path, IsSlash), args)
    ensures SearchView(path, args, parse1) == SearchView(path, args, parse2)
  {
  }

  /** Each search type selects its own kind of index query, and an
      unrecognised type is answered with 404 without any lookup. */
  lemma SearchDispatch(path: string, args: Args, parse: string -> Parsed)
    requires WithinLimit(Strip(path, IsSlash), args)
    ensures var query := Strip(path, IsSlash);
      var t := parse(query).searchType;
      var p := SearchView(path, args, parse);
      && (t !in KnownTypes ==> p == Respond(Response(404, ErrorBody(404, AddressesNotFound))))
      && (t == "address" ==>
            && p.Lookup? && p.query.AddressSearch? && |p.query.lookups| == 1
            && p.query.lookups[0].filter == AddressFilter(parse(query).components).Merged())
      && (t == "opa_account" ==> p == Lookup(AccountSearch(query), Response(404, ErrorBody(404, AddressesNotFound)), false))
      && (t == "mapreg" ==> p == Lookup(MapRegSearch(query), Response(404, ErrorBody(404, AddressesNotFound)), false))
      && (t == "intersection_addr" ==>
            var c := parse(query).components;
            var f := IntersectionFilter(c.street, c.street2);
            && (p.Respond? <==> f.Raised?)
            && (p.Respond? ==> p.response == Response(500, ServerError))
            && (p.Lookup? ==> p == Lookup(IntersectionSearch(f.value), Response(200, ErrorBody(404, IntersectionNotFound)), NamesMissing(c))))
      && (p.Lookup? ==> t in KnownTypes)
  {
  }

  /** The `address` branch of `/search` plans one lookup for the query. */
  lemma SearchAddressPlan(q: string, args: Args, parse: string -> Parsed)
    requires Strip(q, IsSlash) == q && WithinLimit(q, args) && parse(q).searchType == "address"
    ensures SearchView(q, args, parse) ==
      Lookup(AddressSearch([AddressLookupOf(parse(q).components, args)]), Response(404, ErrorBody(404, AddressesNotFound)), false)
  {
    assert SearchView(q, args, parse) == SearchBranch(q, args, parse(q));
  }

  /** The two copies of the address compiler agree: each lookup of
      `/addresses` is the lookup the `address` branch of `/search` builds for
      that sub-query, with the same not-found answer, whenever `/search`
      would take that branch for it. */
  lemma AddressesAgreeWithSearch(path: string, args: Args, parse: string -> Parsed, i: nat)
    requires AddressesView(path, args, parse).Lookup?
    requires i < |AddressesView(path, args, parse).query.lookups|
    requires var s := SubQueries(Strip(path, IsSlash))[i];
      && !IsSlash(s[0]) && !IsSlash(s[|s| - 1])
      && WithinLimit(s, args) && parse(s).searchType == "address"
    ensures var p := AddressesView(path, args, parse);
      var s := SubQueries(Strip(path, IsSlash))[i];
      SearchView(s, args, parse) == Lookup(AddressSearch([p.query.lookups[i]]), p.notFound, false)
  {
    var s := SubQueries(Strip(path, IsSlash))[i];
    StripKeepsStripped(s, IsSlash);
    SearchAddressPlan(s, args, parse);
  }

  /** An intersection query names its two streets in either order with the
      same effect. */
  lemma IntersectionSearchOrderFree(path: string, args: Args, parse: string -> Parsed, swapped: string -> Parsed)
    requires var q := Strip(path, IsSlash);
      && parse(q).searchType == "intersection_addr"
      && swapped(q).searchType == "intersection_addr"
      && swapped(q).components.street.streetCode == parse(q).components.street2.streetCode
      && swapped(q).components.street2.streetCode == parse(q).components.street.streetCode
      && swapped(q).components.street.full == parse(q).components.street2.full
      && swapped(q).components.street2.full == parse(q).components.street.full
    ensures SearchView(path, args, parse) == SearchView(path, args, swapped)
  {
    var c := parse(Strip(path, IsSlash)).components;
    var d := swapped(Strip(path, IsSlash)).components;
    IntersectionCodesSymmetric(c.street.streetCode, c.street2.streetCode);
    assert IntersectionFilter(c.street, c.street2) == IntersectionFilter(d.street, d.street2);
    assert NamesMissing(c) == NamesMissing(d);
  }

  /** A found intersection on a valid page is listed only when both streets
      have a full name; when either is missing the listing raises and the
      route answers with the 500 handler's response. */
  lemma IntersectionListingNeedsNames(path: string, args: Args, parse: string -> Parsed, count: DbQuery -> nat,
                                      validatePage: (nat, string) -> PageVerdict)
    requires var q := Strip(path, IsSlash);
      && WithinLimit(q, args)
      && parse(q).searchType == "intersection_addr"
    requires var p := SearchView(path, args, parse);
      && p.Lookup? && count(p.query) > 0
      && validatePage(count(p.query), PageArg(args)).ValidPage?
    ensures var c := parse(Strip(path, IsSlash)).components;
      var r := Search(path, args, parse, count, validatePage);
      && (NamesMissing(c) <==> r == Response(500, ServerError))
      && (!NamesMissing(c) <==> r.status == 200 && r.body.Listing?)
  {
    var q := Strip(path, IsSlash);
    var p := SearchView(path, args, parse);
    assert p == SearchBranch(q, args, parse(q));
  }

  /** On `/search` an empty result is always a not-found answer, whatever
      the page argument and the paginator's verdict on it. */
  lemma SearchEmptyIsNotFound(path: string, args: Args, parse: string -> Parsed, count: DbQuery -> nat,
                              validatePage: (nat, string) -> PageVerdict)
    requires SearchView(path, args, parse).Lookup?
    requires count(SearchView(path, args, parse).query) == 0
    ensures IsNotFound(Search(path, args, parse, count, validatePage))
  {
  }
}
